=== FILE: README.md ===
# RedisShake core, modelled in Dafny

RedisShake copies the data of a source Redis into a target Redis. It
registers with the source as a replica (`PSYNC ? -1`) and saves the
snapshot (RDB file) the master sends. It then replays the snapshot as
commands, then forwards the live replication stream. A pipelined writer
sends everything to the target.

This project models the sequential logic of that pipeline as pure
functions over immutable data, and proves what the code promises about it.

- **Replication-stream framing** (`internal/reader/psync.go`). It covers:
  - the master offset in the PSYNC reply;
  - the `\n…$<len>\r\n` bulk header;
  - the copy loop that saves the snapshot;
  - the received-offset accounting of the live log;
  - the routing of live commands, where `select` switches the database and is swallowed.
- **Snapshot loader** (`internal/rdb/rdb.go`). It covers:
  - the header check;
  - the tag-dispatched record state machine (current db, pending expiry, captured `repl-stream-db`);
  - the entries emitted per key: rewrite commands plus `PEXPIREAT`, or one `restore`;
  - the DUMP payload layout.
- **List and set decoders and rewriters** (`internal/rdb/types/list.go`,
  `internal/rdb/types/set.go`). These are the dispatch on the encoding, the
  four list encodings including the quicklist2 containers, the two set
  encodings, and the `lpush` / `sadd` rewrites.
- **Pipelined writer** (`internal/writer/redis.go`). It covers:
  - `select` minimisation;
  - the commands on the wire;
  - the bounded reply queue, with blocking on a full queue;
  - the reply policy for the BUSYKEY error.

Modules, one file each:

| module | file | role |
|---|---|---|
| `Results` | results.dfy | `Option`, `Result`; `Fatal` stands for `log.Panicf` |
| `Bytes` | bytes.dfy | byte and fixed-width types, little-endian layout, Go's `int(uint64)` |
| `Strconv` | strconv.dfy | Go's `Atoi`, `Itoa`, `FormatUint`, `TrimSpace`, `Split`, `EqualFold` |
| `Entries` | entry.dfy | the entry passed from readers to the writer |
| `Structure` | structure.dfy | snapshot primitives: a byte cursor, abstract decoders, repetition |
| `Lists`, `Sets`, `Objects` | lists.dfy, sets.dfy, objects.dfy | value decoders and rewriters |
| `Rdb` | rdb.dfy | record reader, loader state machine, DUMP payload, `restore` arguments |
| `Psync` | psync.dfy | PSYNC reply, bulk header, copy loop, live log, live routing |
| `Writer` | writer.dfy | writer state, `Write`, the reply loop, the wire layout |

Things outside the model are parameters:
- The decoders of `internal/rdb/structure` are not part of this model (`ReadLength`, `ReadString`, `ReadZipList`, `ReadListpack`, `ReadIntset`). They are function-valued fields of `Structure.Primitives`. Each returns a value and the number of bytes it consumed. A decoder that claims more bytes than remain counts as a read past end of file.
- The decoders of the other value types are a further such field.
- The CRC-64 digest of `utils` is a parameter `digest: seq<byte> -> uint64`.
- Network reads become explicit byte streams plus per-call read sizes ("grants").
- The configuration (`TargetRedisProtoMaxBulkLen`, `RDBRestoreCommandBehavior`, `PipelineCountLimit`) is passed in.

Two behaviours of the code worth knowing:
- **The rewrite threshold is strict.** A value whose encoding is exactly `TargetRedisProtoMaxBulkLen` bytes long is restored through DUMP, not rewritten (internal/rdb/rdb.go:121).
- **Replaying a list's rewrite reverses it.** `lpush key e1 … en` on an empty list yields `en … e1`, so replay does not preserve the order. `Lists.RewriteReplayReverses` proves the reversal. `Lists.RewriteReplayInOrderIffPalindrome` proves that order survives exactly for palindromes.

## Model

| member | source | states |
|---|---|---|
| Rdb.CheckHeader | internal/rdb/rdb.go:55-67 | the header is accepted iff the file has nine bytes, the first five spell `REDIS` and the next four are accepted by `Atoi`; the result is that version |
| Rdb.CheckHeaderAcceptsDigits | internal/rdb/rdb.go:55-67 | any four decimal digits after `REDIS`, leading zeros included, are accepted, and the version is their decimal value |
| Rdb.CheckHeaderVersion9 | internal/rdb/rdb.go:55-67 | the header `REDIS0009` of a version 9 file is accepted as version 9 |
| Rdb.ReadBody | internal/rdb/rdb.go:79-120 | `0xf8` reads a length as the idle time; `0xf9` one byte as the frequency; `0xfa` two consecutive strings as an aux key and value; `0xfb` two consecutive lengths as the resize sizes; `0xfc` an 8-byte little-endian expiry; `0xfd` a 4-byte one; `0xfe` a length as the database; only `0xff` yields the end-of-file record; any other tag reads the key, then the object, and the record keeps exactly the bytes the object decoder consumed; each tag succeeds exactly when its reads do, and the body consumes exactly what they consumed: nothing for `0xff`, 8, 4 or 1 bytes for the fixed-width tags, the decoders' counts summed for the others |
| Rdb.ReadRecord | internal/rdb/rdb.go:78-80 | a record is read exactly when a tag byte is present and the body for that tag reads after it; the record is that body's, and consumes the tag byte plus the body's bytes |
| Rdb.Scan | internal/rdb/rdb.go:76-80 | the first record is the one `ReadRecord` reads at the start, and a failure there is the scan's failure; a stream read without error ends with the end-of-file record, and no earlier record is one |
| Rdb.ScanRecordAt | internal/rdb/rdb.go:76-80 | the records are the stream's bytes read back to back: record `i` is what `ReadRecord` reads at its offset, the first offset is 0, and each next record starts where the previous read stopped |
| Rdb.ScanFailureAt | internal/rdb/rdb.go:76-80 | a failed scan failed where the last record ended (at 0 when there is none): `ReadRecord` at exactly that position fails with the scan's reason |
| Rdb.CreateValueDump | internal/rdb/rdb.go:156-165 | the payload is `|val| + 11` bytes: type byte, value, 6 as two little-endian bytes, then the little-endian digest of the `|val| + 3` bytes before it |
| Rdb.DumpRoundTrip | internal/rdb/rdb.go:156-165 | the target's check of a built payload accepts it and recovers the type byte and the value |
| Rdb.ParseDumpOnlyCreated | internal/rdb/rdb.go:156-165 | conversely, every payload that passes the version and digest checks is the one built from its type byte and value |
| Rdb.RestoreArgvRoundTrip | internal/rdb/rdb.go:142-148 | the `restore` arguments carry the key, the decimal expiry, the payload, then `replace` exactly when the behaviour is "rewrite", then `absttl` exactly when an expiry is pending, in that order |
| Rdb.ParseRestoreOnlyRestoreArgv | internal/rdb/rdb.go:134-148 | conversely, a `restore` command whose TTL is spelled without leading zeros and whose flags agree with the behaviour and the TTL is exactly the one the loader writes |
| Rdb.KeyEntries | internal/rdb/rdb.go:121-150 | every entry carries the current db and is a base entry; above the threshold, the rewrite commands in order then exactly one `PEXPIREAT key <expireAt>` iff an expiry is pending; otherwise exactly one `restore` whose arguments, TTL spelled as `FormatUint` spells it, and payload decode back to key, expiry, flags, type byte and value, the payload being exactly the DUMP payload built from the type byte and the value's bytes |
| Rdb.Load | internal/rdb/rdb.go:76-154 | every entry the loader emits is a base entry |
| Rdb.ParseRdb | internal/rdb/rdb.go:49-74 | a rejected header emits nothing and fails; a successful run had a valid header and emits what loading the scanned records emits; the run stops exactly as loading the records stops, and when the records run out before the end-of-file record, the scan failed and its reason is the failure |
| Rdb.ParseRdbReturnsReplStreamDb | internal/rdb/rdb.go:49-74 | a file whose header is valid and whose records all read returns the last `repl-stream-db` value before the end-of-file record (0 when none), with the entries of the records before it; a `repl-stream-db` value `Atoi` rejects fails the run |
| Rdb.LoadEndsAtEof | internal/rdb/rdb.go:76-115 | records that end with the end-of-file record never leave the loader waiting for more |
| Rdb.WalkFromNew | internal/rdb/rdb.go:87-113 | from a fresh loader, the state after any run of records is the last `repl-stream-db` integer, the db of the last select record, and the expiry of the last expire record not followed by a key; the run fails exactly when some `repl-stream-db` value is not an integer |
| Rdb.LoadSplit | internal/rdb/rdb.go:76-154 | loading `a ++ b` emits `a`'s entries, then those of `b` loaded from the state `a` left behind |
| Rdb.KeyAfterRun | internal/rdb/rdb.go:117-151 | a key record after a run is emitted with that run's selected db and pending expiry, and leaves the pending expiry 0 for what follows |
| Rdb.EofReturnsReplStreamDb | internal/rdb/rdb.go:73-115 | at the end-of-file record the loader stops and returns the last `repl-stream-db` value, or 0 when there was none |
| Rdb.BadReplStreamDbIsFatal | internal/rdb/rdb.go:90-95 | a `repl-stream-db` value that is not an integer stops the load with a failure, whatever follows |
| Rdb.NonKeyRunsEmitNothing | internal/rdb/rdb.go:81-115 | idle, freq, aux, resize, expire, select and end-of-file records emit no entry |
| Rdb.Next | internal/rdb/rdb.go:87-151 | a `repl-stream-db` aux record sets the captured db to its `Atoi` value and is the only record that can fail, exactly when `Atoi` fails; an expire record sets the pending expiry (seconds times 1000); a select record sets the db through `int(...)`; a key record clears the pending expiry; every other record leaves the state alone |
| Rdb.Emit | internal/rdb/rdb.go:116-150 | only a key record emits entries, all of them base entries for the current db |
| Objects.ParseObject | internal/rdb/rdb.go:117-120 | list type bytes go to the list loader, set type bytes to the set loader, any other to the other types' decoder, each with the same outcome, value and byte count; no more bytes are consumed than exist |
| Structure.ReadUint64 | internal/rdb/rdb.go:104-105 | succeeds iff eight bytes remain; the value's little-endian encoding is those bytes |
| Structure.ReadUint32 | internal/rdb/rdb.go:107-108 | succeeds iff four bytes remain; the value's little-endian encoding is those bytes |
| Structure.RepeatSplit | internal/rdb/types/list.go:44-50 | reading `a + b` items is reading `a` items, then `b` more from where they ended |
| Structure.RepeatIsFlattenOfEach | internal/rdb/types/list.go:52-59 | appending the items of `n` reads gives the concatenation of the per-read results, with the same outcome |
| Lists.ReadCount | internal/rdb/types/list.go:45-46 | a length of 2^63 or more turns negative under `int(...)`, so the loop reads nothing; smaller lengths are kept |
| Lists.Load | internal/rdb/types/list.go:21-35 | only the four list type bytes are accepted, any other is fatal; the key is kept; each type byte succeeds exactly when its own decoder does (plain list, ziplist, quicklist, quicklist2) and yields exactly that decoder's elements and byte count |
| Lists.ReadList | internal/rdb/types/list.go:44-50 | the plain encoding succeeds exactly when the count and every string after it read; it yields as many elements as the loop runs, one string each, and consumes the count's bytes plus the strings' |
| Lists.ReadQuickList | internal/rdb/types/list.go:52-59 | succeeds exactly when the count and every ziplist node read, and consumes the count's bytes plus the nodes'; a quicklist of zero nodes, or of a length that wraps negative, yields no element and consumes only its length |
| Lists.ReadQuickList2 | internal/rdb/types/list.go:61-77 | succeeds exactly when the count and every node read, and consumes the count's bytes plus the nodes'; a quicklist2 whose first node cannot be read, such as one of an unknown container kind, is fatal |
| Lists.ReadListElements | internal/rdb/types/list.go:44-50 | the plain encoding of length `n` yields exactly `n` elements (none for `n >= 2^63`), element `i` being the string read after the first `i` |
| Lists.QuickListConcatenatesNodes | internal/rdb/types/list.go:52-59 | a quicklist's elements are its ziplist nodes' elements, concatenated in node order |
| Lists.ReadNode | internal/rdb/types/list.go:65-75 | container 1 yields exactly one string, container 2 exactly the listpack's elements, any other container is fatal |
| Lists.QuickList2ConcatenatesNodes | internal/rdb/types/list.go:61-77 | a quicklist2's elements are its nodes' elements, concatenated in node order |
| Lists.Rewrite | internal/rdb/types/list.go:37-42 | exactly one command, `lpush key` followed by the elements, of length `2 + |elements|` |
| Lists.LpushPrependsReversed | internal/rdb/types/list.go:37-42 | `lpush` of values onto a list puts them, reversed, in front of it |
| Lists.RewriteReplayReverses | internal/rdb/types/list.go:37-42 | replaying the rewrite on an empty list yields the elements reversed |
| Lists.RewriteReplayInOrderIffPalindrome | internal/rdb/types/list.go:37-42 | the replay reproduces the original order iff the element sequence is a palindrome |
| Sets.ReadSet | internal/rdb/types/set.go:26-33 | a length `n` below 2^63 succeeds exactly when the `n` strings read, yields exactly `n` elements and consumes the length's bytes plus the strings'; `n >= 2^63` is fatal, since `make` rejects a negative size |
| Sets.ReadSetElementAt | internal/rdb/types/set.go:26-33 | element `i` is the string read after the first `i` |
| Sets.Load | internal/rdb/types/set.go:14-24 | only the set and intset type bytes are accepted, any other is fatal; the set encoding is exactly `ReadSet`'s elements and byte count, the intset encoding exactly the intset decoder's output; the key is kept |
| Sets.Rewrite | internal/rdb/types/set.go:35-40 | exactly one command, `sadd key` followed by the elements |
| Sets.SaddAddsAll | internal/rdb/types/set.go:35-40 | `sadd` of values leaves exactly the old members and the values |
| Sets.RewriteReplayMembers | internal/rdb/types/set.go:35-40 | replaying the rewrite on an empty set yields exactly the set's elements as members |
| Psync.MasterOffset | internal/reader/psync.go:88-95 | the offset is `Atoi` of the third space-separated field; a reply with fewer fields or a non-integer field is fatal |
| Psync.MasterOffsetOfFullResync | internal/reader/psync.go:88-96 | for a `FULLRESYNC <replid> <offset>` reply, the parsed offset is the one the master sent |
| Psync.ParseBulkHeader | internal/reader/psync.go:98-121 | leading `\n` bytes are skipped, and a stream that is all newlines is fatal; the next byte must be `$`, otherwise fatal; the header is accepted exactly when a `\n` follows and `Atoi(TrimSpace(...))` accepts the bytes up to it; the length is that value and the header ends with that `\n` |
| Psync.BulkHeaderRoundTrip | internal/reader/psync.go:98-121 | any number of newlines, `$`, a decimal length and CR LF parse back to that length and exactly that header's size |
| Psync.BulkHeaderAccepts | internal/reader/psync.go:98-121 | any newlines, `$`, a number `Atoi` accepts (signs and leading zeros included) and an LF or CR LF ending parse to `Atoi`'s value, consuming exactly that header |
| Psync.CopyRdbAsWritten | internal/reader/psync.go:132-145 | the loop stops once at least the announced length is read, and the last read starts before that point |
| Psync.CopyAsWrittenOvershoots | internal/reader/psync.go:132-145 | a single read can return more than the remaining length, and the loop then consumes bytes past the snapshot |
| Psync.CopyAsWrittenOvershootExample | internal/reader/psync.go:132-145 | a 3-byte snapshot followed by live bytes, read in one 5-byte read, consumes all 5 |
| Psync.CopyRdb | internal/reader/psync.go:132-145 | the corrected loop consumes exactly the announced length (0 when negative) |
| Psync.CopyLoopCompletes | internal/reader/psync.go:135-145 | with enough non-empty reads and enough stream, the corrected loop succeeds |
| Psync.AdvanceAddsSum | internal/reader/psync.go:158-169 | after chunks of sizes `n1 … nk`, the received offset has grown by exactly their sum |
| Psync.AdvanceAppend | internal/reader/psync.go:158-169 | the accounting of two runs of chunks composes |
| Psync.SaveAof | internal/reader/psync.go:153-171 | the log starts at the given offset, holds a prefix of the live bytes, and the received offset is that start plus the bytes logged |
| Psync.Transfer | internal/reader/psync.go:47-55 | with the corrected snapshot copy, the snapshot is exactly the announced number of bytes right after the header; the live log holds the bytes right after it; the log reader opens at the master offset |
| Psync.StartRead | internal/reader/psync.go:44-59 | with the corrected snapshot copy, a successful start read the master offset from the reply and the header from the stream, and accounts for the stream without loss or overlap |
| Psync.TailCoversLog | internal/reader/psync.go:50-55 | opened at the offset captured after the snapshot, the log reader sees the whole live log; at the advanced received offset it would see nothing |
| Psync.RouteLive | internal/reader/psync.go:181-202 | every forwarded entry is a live entry, is not a `select` in any letter case, and is never empty; the loop runs to the end without failure exactly when every command is non-empty and every `select` carries a database `Atoi` accepts |
| Psync.StopsAtFirstUnroutable | internal/reader/psync.go:185-191 | after routable commands, an empty command or a `select` without an integer database stops the loop with a failure: what came before is forwarded, nothing after it, and the db is the one the earlier commands selected |
| Psync.RouteLiveCons | internal/reader/psync.go:196-200 | a non-`select` command is sent as one live entry for the current db, ahead of what the following commands route to |
| Psync.RouteLiveStuck | internal/reader/psync.go:185-191 | an empty command, or a `select` whose database is missing or not an integer, fails at once, sends nothing and keeps the db |
| Psync.RouteLiveMatchesReference | internal/reader/psync.go:184-201 | on well-formed commands, the forwarded arguments are the non-`select` commands in order, and the final db is that of the last `select`, or the starting db |
| Psync.RouteLiveAppend | internal/reader/psync.go:184-201 | routing `a ++ b` is routing `a`, then `b` from the db `a` left selected |
| Psync.LiveCommandAfterRun | internal/reader/psync.go:176-201 | a non-`select` command after a run becomes exactly one entry, unchanged, for the db of the run's last `select`, or the loader's `repl-stream-db` when the run has none |
| Writer.Write | internal/writer/redis.go:30-41 | a `select` goes on the wire iff the entry's db differs from the last one, then the entry's arguments verbatim; the db becomes the entry's; exactly the entry is queued for a reply; it blocks iff the queue is full |
| Writer.ClassifyReply | internal/writer/redis.go:68-77 | the reply loop aborts iff there is an error that is not BUSYKEY, or BUSYKEY under "panic"; BUSYKEY is skipped under "skip" and accepted under any other behaviour |
| Writer.Take | internal/writer/redis.go:65 | the reply loop takes the oldest queued entry into hand; a blocked writer's entry moves into the freed slot and the writer is released; no entry is judged yet, and nothing else changes |
| Writer.Judge | internal/writer/redis.go:66-77 | the next reply is judged as the reply to the entry in hand: an abort verdict is fatal, otherwise that entry is recorded as answered and the hand is empty; nothing else changes |
| Writer.NewWriterInv | internal/writer/redis.go:20-28 | a fresh writer, in db 0 with nothing sent, satisfies the invariant |
| Writer.WriteKeepsInv | internal/writer/redis.go:30-41 | `Write` keeps the invariant: channel within the limit, unjudged entries = entries written minus those answered, wire = reference layout |
| Writer.TakeKeepsInv | internal/writer/redis.go:65 | taking an entry into hand keeps the invariant |
| Writer.JudgeKeepsInv | internal/writer/redis.go:66-77 | judging the entry in hand keeps the invariant |
| Writer.RepliesInWriteOrder | internal/writer/redis.go:41-66 | the entries whose replies were read are a prefix of the entries written, in write order; the rest is the entry in hand and the queue, at most the limit plus two: the channel's slots, the entry in hand and the one a blocked writer holds |
| Writer.UnjudgedReachesLimitPlusTwo | internal/writer/redis.go:25-66 | the bound is reached: with one slot, an entry in hand, one in the channel and one blocked are all unjudged in a reachable state |
| Writer.WireLength | internal/writer/redis.go:31-38 | the wire holds each entry's command once plus one `select` per db change |
| Writer.SameDbNoSelect | internal/writer/redis.go:31-38 | entries that all stay in the connection's db (db 0 for a fresh writer) produce no `select`, and the wire is their commands in order |
| Writer.WirePosition | internal/writer/redis.go:31-38 | the `k`-th entry's command sits on the wire after the `k` earlier commands and every `select` sent up to it |
| Writer.RepliesLagSelects | internal/writer/redis.go:38-66 | the wire outnumbers the awaited replies by the number of `select`s, so the `k`-th reply read answers the `k`-th wire command, while the `k`-th entry's command sits that many places later |
| Writer.SelectReplyMisattributed | internal/writer/redis.go:30-66 | for a first entry in db 1, the reply judged for `set` is the target's answer to `select 1` |
| Strconv.Atoi | internal/reader/psync.go:118 | succeeds exactly on an optional sign followed by one or more digits whose signed value fits in an `int64`, leading zeros allowed; the value is their decimal value, negated after `-` |
| Strconv.AtoiItoa | internal/reader/psync.go:118 | every `int64` printed in decimal parses back to itself |
| Strconv.FormatNatOfDecimal | internal/rdb/rdb.go:134 | canonical digit strings, with no leading zero, are exactly the decimal spellings of their values |
| Strconv.TrimSpaceCutsSpace | internal/reader/psync.go:117 | what `TrimSpace` keeps is a slice of its input with only white space before and after it |
| Strconv.TrimSpaceSuffix | internal/reader/psync.go:117 | trimming a string without outer white space, followed by white space, gives the string back |
| Strconv.JoinSplit | internal/reader/psync.go:92 | joining the pieces of a split with the separator gives back the original string |
| Strconv.SplitPiecesExcludeSeparator | internal/reader/psync.go:92 | no piece of a split contains the separator |
| Strconv.SplitThree | internal/reader/psync.go:92 | three separator-free strings joined by the separator split into exactly those three |
| Bytes.DecodeEncodeLE | internal/rdb/rdb.go:162-163 | decoding the little-endian encoding of a value gives the value back |
| Bytes.EncodeDecodeLE | internal/rdb/rdb.go:162-163 | encoding the decoded value of a byte string at its width gives the bytes back |
| Bytes.AsInt64 | internal/rdb/rdb.go:112 | Go's `int(uint64)`: the result is in the `int64` range, agrees with the input modulo 2^64, and is negative iff the input is at least 2^63 |
| Bytes.AsStringAsBytes | internal/rdb/rdb.go:164 | a string of byte-valued characters survives the round trip through bytes |

## Left out

- Network and file I/O are left out:
  - dialing, authentication and `replconf listening-port`;
  - creating `dump.rdb` and clearing the directory;
  - the rotating AOF writer and reader, which become an in-memory log (`Psync.AofLog`) with the same offsets.
- The goroutines and channels are left out as concurrency. `StartRead` is modelled as its sequential composition. The writer's two loops are interleaved explicitly: a caller interleaves `Write`, `Take` and `Judge`.
- The `replconf ack` heartbeat and the one-second settle sleep are timing only, so they are left out.
- The decoding of protocol replies into `[]string` (`redis.ArrayString`) is left out: live commands arrive already decoded.
- Command classification, keys and slots (`CalcKeys`, `CalcSlots`) and the Lua filter are left out. `Entries.Entry` has no sequence id, command name, key or slot fields.
- The bodies of the primitive decoders, the other value types' decoders and the CRC-64 digest are parameters, because their source is not part of this model.
- `Strconv.EqualFold` and `Strconv.TrimSpace` cover ASCII only. Go's Unicode case folding and Unicode white space are not modelled.
- Psync.Advance: the received offset is an unbounded integer. The `int64` wrap of `receivedOffset` after 2^63 bytes is not modelled.
- Writer.Judge: the reply itself is reduced to its error text. Reply values are not modelled.
- Psync.Transfer: it copies the snapshot with the corrected loop `Psync.CopyRdb`, not the loop as written at internal/reader/psync.go:133-145, so its promise that the live log starts right after the snapshot holds for the corrected loop only (see "## Findings").
- Psync.StartRead: it composes `Psync.Transfer`, so "without loss or overlap" likewise holds for the corrected copy only; with the loop as written, bytes past the snapshot can be lost to the snapshot file.
- Writer.Write: the statistics and the commented-out flush policy are not modelled.
- Structure.Repeat: decoders are total functions on the remaining bytes, and a failing decoder is `Fatal`. Which partial bytes a failing read consumed is not modelled.

## Findings

| source | as written | input that shows it | evidently intended | confidence | as-written member | corrected member |
|---|---|---|---|---|---|---|
| internal/reader/psync.go:133-145 | the snapshot copy loop reads into a 32 MiB buffer until at least `length` bytes have arrived, and writes every byte it read to the snapshot file | stream `[1, 2, 3, 4, 5]` after a header announcing 3 bytes, read by one `Read` that returns 5 bytes: the loop consumes 5, so bytes 4 and 5 of the live stream end up in `dump.rdb` and never reach the live log, while the log reader still starts at the master offset | read at most the remaining `length - readTotal` bytes per call (e.g. `io.CopyN`), so that the snapshot is exactly `length` bytes and the live log starts right after it | medium, not executed | Psync.CopyAsWrittenOvershoots | Psync.CopyRdb |

The rest of the model uses the corrected loop: `Psync.Transfer` and
`Psync.StartRead` copy the snapshot with `Psync.CopyRdb`. That is why they
can promise that the live log starts right after the snapshot.

=== FILE: bytes.dfy ===
/** Fixed-width unsigned integers, the little-endian layouts the snapshot
    format uses for them, and Go's `int(uint64)` conversion. */
module Bytes {

  type byte = x: int | 0 <= x < 0x100
  type uint32 = x: int | 0 <= x < 0x1_0000_0000
  type uint64 = x: int | 0 <= x < 0x1_0000_0000_0000_0000

  const TwoTo63: int := 0x8000_0000_0000_0000
  const TwoTo64: int := 0x1_0000_0000_0000_0000

  /** 256 to the power `n`: one more than the largest `n`-byte value. */
  function Pow256(n: nat): (r: nat)
    ensures r > 0
  {
    if n == 0 then 1 else 256 * Pow256(n - 1)
  }

  /** `x` written as `width` little-endian bytes (Go's
      `binary.Write(w, binary.LittleEndian, x)`). */
  function EncodeLE(x: nat, width: nat): (r: seq<byte>)
    requires x < Pow256(width)
    ensures |r| == width
    decreases width
  {
    if width == 0 then []
    else
      assert x / 256 < Pow256(width - 1);
      [x % 256] + EncodeLE(x / 256, width - 1)
  }

  /** The unsigned integer whose little-endian bytes are `b`. */
  function DecodeLE(b: seq<byte>): (n: nat)
    ensures n < Pow256(|b|)
    decreases |b|
  {
    if b == [] then 0
    else
      var rest := DecodeLE(b[1..]);
      assert rest <= Pow256(|b| - 1) - 1;
      b[0] + 256 * rest
  }

  lemma {:induction false} DecodeEncodeLE(x: nat, width: nat)
    requires x < Pow256(width)
    ensures DecodeLE(EncodeLE(x, width)) == x
    decreases width
  {
    if width > 0 {
      var e := EncodeLE(x, width);
      assert e[1..] == EncodeLE(x / 256, width - 1);
      DecodeEncodeLE(x / 256, width - 1);
    }
  }

  lemma {:induction false} EncodeDecodeLE(b: seq<byte>)
    ensures EncodeLE(DecodeLE(b), |b|) == b
    decreases |b|
  {
    if b != [] {
      var n := DecodeLE(b);
      var rest := DecodeLE(b[1..]);
      assert n == b[0] + 256 * rest;
      assert n % 256 == b[0];
      assert n / 256 == rest;
      EncodeDecodeLE(b[1..]);
    }
  }

  /** Go's `int(u)` for a `uint64` on a 64-bit platform: values at or above
      2^63 wrap around to negative numbers. */
  function AsInt64(u: uint64): (r: int)
    ensures -TwoTo63 <= r < TwoTo63
    ensures r >= 0 <==> u < TwoTo63
    ensures r % TwoTo64 == u
  {
    if u < TwoTo63 then u else u - TwoTo64
  }

  /** A byte string viewed as a Go `string`: one character per byte. */
  function AsString(b: seq<byte>): (s: string)
    ensures |s| == |b|
    ensures forall i :: 0 <= i < |b| ==> s[i] as int == b[i]
  {
    seq(|b|, i requires 0 <= i < |b| => b[i] as char)
  }

  /** The bytes of a Go `string` whose characters are all bytes. */
  function AsBytes(s: string): (b: seq<byte>)
    ensures |b| == |s|
    ensures forall i :: 0 <= i < |s| ==> b[i] == s[i] as int % 0x100
  {
    seq(|s|, i requires 0 <= i < |s| => s[i] as int % 0x100)
  }

  lemma AsBytesAsString(b: seq<byte>)
    ensures AsBytes(AsString(b)) == b
  {
  }

  /** Conversely, a string whose characters are all bytes survives the
      trip through bytes. */
  lemma AsStringAsBytes(s: string)
    requires forall i :: 0 <= i < |s| ==> s[i] as int < 0x100
    ensures AsString(AsBytes(s)) == s
  {
    var t := AsString(AsBytes(s));
    forall i | 0 <= i < |s|
      ensures t[i] == s[i]
    {
      assert t[i] as int == s[i] as int % 0x100 == s[i] as int;
    }
  }

  lemma AsStringAppend(a: seq<byte>, b: seq<byte>)
    ensures AsString(a + b) == AsString(a) + AsString(b)
  {
    var l := AsString(a + b);
    var r := AsString(a) + AsString(b);
    forall i | 0 <= i < |l|
      ensures l[i] == r[i]
    {
      if i < |a| {
        assert l[i] as int == a[i] == r[i] as int;
      } else {
        assert l[i] as int == b[i - |a|] == r[i] as int;
      }
    }
  }
}

=== FILE: entry.dfy ===
/** The unit of work passed from the readers to the writer. */
module Entries {

  /** One command for the target: the database it applies to, its
      arguments, and whether it comes from the snapshot (`isBase`) or from
      the live stream. The sequence id, command name, keys and slots are
      filled in downstream of the core and are not part of the model. */
  datatype Entry = Entry(dbId: int, argv: seq<string>, isBase: bool)
}

=== FILE: lists.dfy ===
/** List values of the snapshot (`ListObject`): decoding its four on-disk
    encodings and rewriting it as one `lpush` command. */
module Lists {
  import opened Results
  import opened Bytes
  import opened Structure

  /** Type bytes of the list encodings in the snapshot format. */
  const TypeList: byte := 1
  const TypeListZiplist: byte := 10
  const TypeListQuicklist: byte := 14
  const TypeListQuicklist2: byte := 18

  /** Quicklist node container kinds. */
  const ContainerPlain: nat := 1
  const ContainerPacked: nat := 2

  predicate IsListType(t: byte) {
    t == TypeList || t == TypeListZiplist || t == TypeListQuicklist || t == TypeListQuicklist2
  }

  datatype ListObject = ListObject(key: string, elements: seq<string>)

  /** `size := int(structure.ReadLength(rd))` used as the bound of
      `for i := 0; i < size; i++`: a length of 2^63 or more converts to a
      negative `int` and the loop runs zero times. */
  function ReadCount(p: Primitives, s: seq<byte>): (r: Result<Parsed<nat>>)
    ensures r.Ok? <==> ReadLength(p, s).Ok?
    ensures r.Ok? ==> r.value.used == ReadLength(p, s).value.used <= |s|
    ensures r.Ok? && ReadLength(p, s).value.value < TwoTo63 ==> r.value.value == ReadLength(p, s).value.value
    ensures r.Ok? && ReadLength(p, s).value.value >= TwoTo63 ==> r.value.value == 0
  {
    var n :- ReadLength(p, s);
    var size := AsInt64(n.value);
    Ok(Parsed(if size < 0 then 0 else size, n.used))
  }

  /** A length followed by that many passes of `item`: it succeeds when
      the length and every pass do, and consumes the length's bytes plus
      those of the passes. */
  function Counted(p: Primitives, item: Item, s: seq<byte>): (r: Result<Parsed<seq<string>>>)
    ensures r.Ok? ==> r.value.used <= |s|
    ensures r.Ok? <==> ReadCount(p, s).Ok?
                       && Repeat(item, s[ReadCount(p, s).value.used..], ReadCount(p, s).value.value).Ok?
    ensures r.Ok? ==>
              var n := ReadCount(p, s).value;
              var xs := Repeat(item, s[n.used..], n.value).value;
              r.value == Parsed(xs.value, n.used + xs.used)
  {
    var n :- ReadCount(p, s);
    var xs :- Repeat(item, s[n.used..], n.value);
    Ok(Parsed(xs.value, n.used + xs.used))
  }

  /** `readList`: one string per element, so as many elements as the
      loop runs; the bytes consumed are the length's, then the strings'. */
  function ReadList(p: Primitives, s: seq<byte>): (r: Result<Parsed<seq<string>>>)
    ensures r.Ok? ==> ReadCount(p, s).Ok? && r.value.used <= |s|
    ensures r.Ok? ==> |r.value.value| == ReadCount(p, s).value.value
    ensures r.Ok? <==> ReadCount(p, s).Ok?
                       && Repeat(StringItem(p), s[ReadCount(p, s).value.used..], ReadCount(p, s).value.value).Ok?
    ensures r.Ok? ==>
              var n := ReadCount(p, s).value;
              r.value.used == n.used + Repeat(StringItem(p), s[n.used..], n.value).value.used
  {
    CountedStrings(p, s);
    Counted(p, StringItem(p), s)
  }

  lemma CountedStrings(p: Primitives, s: seq<byte>)
    ensures var r := Counted(p, StringItem(p), s);
            r.Ok? ==> ReadCount(p, s).Ok? && |r.value.value| == ReadCount(p, s).value.value
  {
    var n := ReadCount(p, s);
    if n.Ok? {
      RepeatStringsCount(p, s[n.value.used..], n.value.value);
    }
  }

  function ZipListItem(p: Primitives): Item {
    t => ReadZipList(p, t)
  }

  /** `readQuickList`: one ziplist per node; no nodes, no elements. The
      bytes consumed are the length's, then the ziplists'. */
  function ReadQuickList(p: Primitives, s: seq<byte>): (r: Result<Parsed<seq<string>>>)
    ensures r.Ok? ==> ReadCount(p, s).Ok? && r.value.used <= |s|
    ensures ReadCount(p, s).Ok? && ReadCount(p, s).value.value == 0 ==>
              r == Ok(Parsed([], ReadCount(p, s).value.used))
    ensures r.Ok? <==> ReadCount(p, s).Ok?
                       && Repeat(ZipListItem(p), s[ReadCount(p, s).value.used..], ReadCount(p, s).value.value).Ok?
    ensures r.Ok? ==>
              var n := ReadCount(p, s).value;
              r.value.used == n.used + Repeat(ZipListItem(p), s[n.used..], n.value).value.used
  {
    Counted(p, ZipListItem(p), s)
  }

  /** One quicklist2 node: a container kind, then either one plain element
      or a packed listpack; any other kind is fatal. */
  function ReadNode(p: Primitives, s: seq<byte>): (r: Result<Parsed<seq<string>>>)
    ensures r.Ok? ==> ReadLength(p, s).Ok? && r.value.used <= |s|
    ensures (ReadLength(p, s).Ok? && ReadLength(p, s).value.value != ContainerPlain
             && ReadLength(p, s).value.value != ContainerPacked) ==> r.Fatal?
    ensures r.Ok? && ReadLength(p, s).value.value == ContainerPlain ==>
              var c := ReadLength(p, s).value;
              var e := ReadString(p, s[c.used..]);
              e.Ok? && r.value == Parsed([e.value.value], c.used + e.value.used)
    ensures r.Ok? && ReadLength(p, s).value.value == ContainerPacked ==>
              var c := ReadLength(p, s).value;
              var xs := ReadListpack(p, s[c.used..]);
              xs.Ok? && r.value == Parsed(xs.value.value, c.used + xs.value.used)
  {
    var c :- ReadLength(p, s);
    var t := s[c.used..];
    if c.value == ContainerPlain then
      var e :- OneString(p, t);
      Ok(Parsed(e.value, c.used + e.used))
    else if c.value == ContainerPacked then
      var xs :- ReadListpack(p, t);
      Ok(Parsed(xs.value, c.used + xs.used))
    else
      Fatal("unknown quicklist container")
  }

  function NodeItem(p: Primitives): Item {
    t => ReadNode(p, t)
  }

  /** `readQuickList2`: one container node per pass; a node that cannot be
      read, such as one of an unknown container kind, is fatal. */
  function ReadQuickList2(p: Primitives, s: seq<byte>): (r: Result<Parsed<seq<string>>>)
    ensures r.Ok? ==> ReadCount(p, s).Ok? && r.value.used <= |s|
    ensures (&& ReadCount(p, s).Ok? && ReadCount(p, s).value.value > 0
             && ReadNode(p, s[ReadCount(p, s).value.used..]).Fatal?) ==> r.Fatal?
    ensures r.Ok? <==> ReadCount(p, s).Ok?
                       && Repeat(NodeItem(p), s[ReadCount(p, s).value.used..], ReadCount(p, s).value.value).Ok?
    ensures r.Ok? ==>
              var n := ReadCount(p, s).value;
              r.value.used == n.used + Repeat(NodeItem(p), s[n.used..], n.value).value.used
  {
    Counted(p, NodeItem(p), s)
  }

  /** `ListObject.LoadFromBuffer`: dispatch on the type byte. */
  function Load(p: Primitives, s: seq<byte>, key: string, typeByte: byte): (r: Result<Parsed<ListObject>>)
    ensures !IsListType(typeByte) ==> r.Fatal?
    ensures r.Ok? ==> r.value.value.key == key && r.value.used <= |s|
    ensures typeByte == TypeList ==>
              (r.Ok? <==> ReadList(p, s).Ok?)
              && (r.Ok? ==> r.value == Parsed(ListObject(key, ReadList(p, s).value.value), ReadList(p, s).value.used))
    ensures typeByte == TypeListZiplist ==>
              (r.Ok? <==> ReadZipList(p, s).Ok?)
              && (r.Ok? ==> r.value == Parsed(ListObject(key, ReadZipList(p, s).value.value), ReadZipList(p, s).value.used))
    ensures typeByte == TypeListQuicklist ==>
              (r.Ok? <==> ReadQuickList(p, s).Ok?)
              && (r.Ok? ==> r.value == Parsed(ListObject(key, ReadQuickList(p, s).value.value), ReadQuickList(p, s).value.used))
    ensures typeByte == TypeListQuicklist2 ==>
              (r.Ok? <==> ReadQuickList2(p, s).Ok?)
              && (r.Ok? ==> r.value == Parsed(ListObject(key, ReadQuickList2(p, s).value.value), ReadQuickList2(p, s).value.used))
  {
    var elements :-
      if typeByte == TypeList then ReadList(p, s)
      else if typeByte == TypeListZiplist then ReadZipList(p, s)
      else if typeByte == TypeListQuicklist then ReadQuickList(p, s)
      else if typeByte == TypeListQuicklist2 then ReadQuickList2(p, s)
      else Fatal("unknown list type");
    Ok(Parsed(ListObject(key, elements.value), elements.used))
  }

  /** The plain encoding with length `n` (below 2^63) yields exactly `n`
      elements, element `i` being the string read after the first `i`. */
  lemma ReadListElements(p: Primitives, s: seq<byte>, i: nat)
    requires ReadList(p, s).Ok?
    ensures var n := ReadLength(p, s).value;
            var xs := ReadList(p, s).value.value;
            && (n.value < TwoTo63 ==> |xs| == n.value)
            && (n.value >= TwoTo63 ==> xs == [])
            && (i < |xs| ==>
                  var before := Repeat(StringItem(p), s[n.used..], i);
                  before.Ok? && ReadString(p, s[n.used..][before.value.used..]).Ok?
                  && xs[i] == ReadString(p, s[n.used..][before.value.used..]).value.value)
  {
    var n := ReadCount(p, s).value;
    var t := s[n.used..];
    RepeatStringsCount(p, t, n.value);
    if i < n.value {
      RepeatStringsAt(p, t, n.value, i);
    }
  }

  /** A quicklist's elements are its ziplist nodes' elements, concatenated
      in node order. */
  lemma QuickListConcatenatesNodes(p: Primitives, s: seq<byte>)
    requires ReadQuickList(p, s).Ok?
    ensures var n := ReadCount(p, s).value;
            var nodes := Each(ZipListItem(p), s[n.used..], n.value);
            && nodes.Ok? && |nodes.value.value| == n.value
            && ReadQuickList(p, s).value.value == Flatten(nodes.value.value)
  {
    var n := ReadCount(p, s).value;
    RepeatIsFlattenOfEach(ZipListItem(p), s[n.used..], n.value);
  }

  /** A quicklist2's elements are its nodes' elements (one plain string or
      one listpack each), concatenated in node order. */
  lemma QuickList2ConcatenatesNodes(p: Primitives, s: seq<byte>)
    requires ReadQuickList2(p, s).Ok?
    ensures var n := ReadCount(p, s).value;
            var nodes := Each(NodeItem(p), s[n.used..], n.value);
            && nodes.Ok? && |nodes.value.value| == n.value
            && ReadQuickList2(p, s).value.value == Flatten(nodes.value.value)
  {
    var n := ReadCount(p, s).value;
    RepeatIsFlattenOfEach(NodeItem(p), s[n.used..], n.value);
  }

  /** `ListObject.Rewrite`. */
  function Rewrite(o: ListObject): (cmds: seq<seq<string>>)
    ensures |cmds| == 1 && |cmds[0]| == 2 + |o.elements|
    ensures cmds[0][..2] == ["lpush", o.key] && cmds[0][2..] == o.elements
  {
    [["lpush", o.key] + o.elements]
  }

  function Reverse(xs: seq<string>): (r: seq<string>)
    ensures |r| == |xs|
    decreases |xs|
  {
    if xs == [] then [] else Reverse(xs[1..]) + [xs[0]]
  }

  /** What `LPUSH key v1 .. vn` does to a list on the target: each value in
      turn becomes the new head. */
  function Lpush(list: seq<string>, values: seq<string>): seq<string>
    decreases |values|
  {
    if values == [] then list else Lpush([values[0]] + list, values[1..])
  }

  lemma {:induction false} LpushPrependsReversed(list: seq<string>, values: seq<string>)
    ensures Lpush(list, values) == Reverse(values) + list
    decreases |values|
  {
    if values != [] {
      LpushPrependsReversed([values[0]] + list, values[1..]);
      assert Reverse(values) == Reverse(values[1..]) + [values[0]];
    }
  }

  /** Replaying the rewrite against a missing key builds the elements in
      reverse order. */
  lemma RewriteReplayReverses(o: ListObject)
    ensures Lpush([], Rewrite(o)[0][2..]) == Reverse(o.elements)
  {
    LpushPrependsReversed([], o.elements);
  }

  /** So the replay rebuilds the source list exactly when the list reads
      the same backwards. */
  lemma RewriteReplayInOrderIffPalindrome(o: ListObject)
    ensures Lpush([], Rewrite(o)[0][2..]) == o.elements <==> IsPalindrome(o.elements)
  {
    RewriteReplayReverses(o);
    var xs := o.elements;
    forall i | 0 <= i < |xs|
      ensures Reverse(xs)[i] == xs[|xs| - 1 - i]
    {
      ReverseAt(xs, i);
    }
  }

  predicate IsPalindrome(xs: seq<string>) {
    forall i :: 0 <= i < |xs| ==> xs[i] == xs[|xs| - 1 - i]
  }

  lemma {:induction false} ReverseAt(xs: seq<string>, i: nat)
    requires i < |xs|
    ensures Reverse(xs)[i] == xs[|xs| - 1 - i]
    decreases |xs|
  {
    assert Reverse(xs) == Reverse(xs[1..]) + [xs[0]];
    if i < |xs| - 1 {
      ReverseAt(xs[1..], i);
    }
  }
}

=== FILE: objects.dfy ===
/** `types.ParseObject`: the registry that decodes one value by its type
    byte. Lists and sets are modelled here; the other value types are
    decoded by `Primitives.other`. */
module Objects {
  import opened Results
  import opened Bytes
  import opened Structure
  import Lists
  import Sets

  datatype RedisObject =
    | ListValue(list: Lists.ListObject)
    | SetValue(members: Sets.SetObject)
    | OtherValue(key: string, commands: seq<seq<string>>)

  function ParseObject(p: Primitives, s: seq<byte>, typeByte: byte, key: string): (r: Result<Parsed<RedisObject>>)
    ensures r.Ok? ==> r.value.used <= |s|
    ensures Lists.IsListType(typeByte) ==>
              (r.Ok? <==> Lists.Load(p, s, key, typeByte).Ok?)
              && (r.Ok? ==> var o := Lists.Load(p, s, key, typeByte).value;
                            r.value == Parsed(ListValue(o.value), o.used))
    ensures Sets.IsSetType(typeByte) ==>
              (r.Ok? <==> Sets.Load(p, s, key, typeByte).Ok?)
              && (r.Ok? ==> var o := Sets.Load(p, s, key, typeByte).value;
                            r.value == Parsed(SetValue(o.value), o.used))
    ensures !Lists.IsListType(typeByte) && !Sets.IsSetType(typeByte) ==>
              var o := Within(p.other(s, typeByte, key), s);
              && (r.Ok? <==> o.Ok?)
              && (r.Ok? ==> r.value == Parsed(OtherValue(key, o.value.value), o.value.used))
  {
    if Lists.IsListType(typeByte) then
      var o :- Lists.Load(p, s, key, typeByte);
      Ok(Parsed(ListValue(o.value), o.used))
    else if Sets.IsSetType(typeByte) then
      var o :- Sets.Load(p, s, key, typeByte);
      Ok(Parsed(SetValue(o.value), o.used))
    else
      var cmds :- Within(p.other(s, typeByte, key), s);
      Ok(Parsed(OtherValue(key, cmds.value), cmds.used))
  }

  /** `o.Rewrite()`: the commands that rebuild the value on the target. */
  function Rewrite(o: RedisObject): seq<seq<string>> {
    match o
    case ListValue(l) => Lists.Rewrite(l)
    case SetValue(st) => Sets.Rewrite(st)
    case OtherValue(_, cmds) => cmds
  }
}

=== FILE: psync.dfy ===
/** The replication session (`psyncReader`) with sockets, files, timers and
    goroutines taken out: the PSYNC reply, the framing of the snapshot
    transfer, the received-offset accounting of the live stream, and the
    routing of live commands into entries. */
module Psync {
  import opened Results
  import opened Bytes
  import opened Strconv
  import opened Entries
  import opened Structure

  const Newline: byte := 10
  const CarriageReturn: byte := 13
  const Dollar: byte := 36

  /** Buffer sizes of the snapshot copy loop and of the live-stream loop. */
  const RdbBufferSize: nat := 32 * 1024 * 1024
  const AofBufferSize: nat := 16 * 1024

  function Min(a: int, b: int): int {
    if a <= b then a else b
  }

  function Max(a: int, b: int): int {
    if a >= b then a else b
  }

  // ---------------------------------------------------------------------
  // PSYNC reply

  /** The master offset: the third space-separated field of the PSYNC
      reply, which must be an integer. */
  function MasterOffset(reply: string): (r: Result<int>)
    ensures |Split(reply, ' ')| < 3 ==> r.Fatal?
    ensures |Split(reply, ' ')| >= 3 ==> r == Atoi(Split(reply, ' ')[2])
  {
    var fields := Split(reply, ' ');
    if |fields| < 3 then Fatal("index out of range") else Atoi(fields[2])
  }

  /** The reply a master sends to `PSYNC ? -1`. */
  function FullResync(replId: string, offset: int): string {
    "FULLRESYNC" + [' '] + replId + [' '] + Itoa(offset)
  }

  lemma MasterOffsetOfFullResync(replId: string, offset: int)
    requires forall k :: 0 <= k < |replId| ==> replId[k] != ' '
    requires MinInt64 <= offset <= MaxInt64
    ensures MasterOffset(FullResync(replId, offset)) == Ok(offset)
  {
    var num := Itoa(offset);
    ItoaShape(offset);
    SplitThree("FULLRESYNC", replId, num, ' ');
    assert FullResync(replId, offset) == "FULLRESYNC" + [' '] + replId + [' '] + num;
    AtoiItoa(offset);
  }

  // ---------------------------------------------------------------------
  // Snapshot framing: \n...\n$<length>\r\n<bytes>

  /** The position of the first byte at or after `i` that is not a
      newline, `|s|` when there is none. */
  function SkipNewlines(s: seq<byte>, i: nat): (n: nat)
    requires i <= |s|
    ensures i <= n <= |s|
    ensures forall j :: i <= j < n ==> s[j] == Newline
    ensures n < |s| ==> s[n] != Newline
    decreases |s| - i
  {
    if i == |s| || s[i] != Newline then i else SkipNewlines(s, i + 1)
  }

  /** `ReadString('\n')` from position `i`: the position just past the
      first newline at or after `i`; none when the input ends first. */
  function LineEnd(s: seq<byte>, i: nat): (r: Option<nat>)
    requires i <= |s|
    ensures r.Some? ==> i < r.value <= |s| && s[r.value - 1] == Newline
    ensures r.Some? ==> forall j :: i <= j < r.value - 1 ==> s[j] != Newline
    ensures r.None? ==> forall j :: i <= j < |s| ==> s[j] != Newline
    decreases |s| - i
  {
    if i == |s| then None
    else if s[i] == Newline then Some(i + 1)
    else LineEnd(s, i + 1)
  }

  /** The number a header line announces: `Atoi` of the line after the
      `$`, white space trimmed. */
  function HeaderValue(line: seq<byte>): Result<int> {
    Atoi(TrimSpace(AsString(line)))
  }

  /** The snapshot length announced before the snapshot bytes, and how many
      bytes the header took. Newlines before the `$` are skipped; any other
      byte there, a line without end, or a length `Atoi` rejects is fatal. */
  function ParseBulkHeader(s: seq<byte>): (r: Result<Parsed<int>>)
    ensures SkipNewlines(s, 0) == |s| ==> r.Fatal?
    ensures SkipNewlines(s, 0) < |s| && s[SkipNewlines(s, 0)] != Dollar ==> r.Fatal?
    ensures var k := SkipNewlines(s, 0);
            r.Ok? <==> && k < |s| && s[k] == Dollar && LineEnd(s, k + 1).Some?
                       && HeaderValue(s[k + 1..LineEnd(s, k + 1).value]).Ok?
    ensures r.Ok? ==>
              var k := SkipNewlines(s, 0);
              && k < |s| && LineEnd(s, k + 1) == Some(r.value.used)
              && k < r.value.used <= |s|
              && s[k] == Dollar
              && HeaderValue(s[k + 1..LineEnd(s, k + 1).value]) == Ok(r.value.value)
  {
    var k := SkipNewlines(s, 0);
    if k == |s| || s[k] != Dollar then Fatal(if k == |s| then "EOF" else "invalid rdb format")
    else HeaderLine(s, k)
  }

  /** The header line after the `$` at `k`: it reads up to the next
      newline, and its text must be a number. */
  function HeaderLine(s: seq<byte>, k: nat): (r: Result<Parsed<int>>)
    requires k < |s|
    ensures r.Ok? <==> LineEnd(s, k + 1).Some? && HeaderValue(s[k + 1..LineEnd(s, k + 1).value]).Ok?
    ensures r.Ok? ==>
              && LineEnd(s, k + 1) == Some(r.value.used)
              && k < r.value.used <= |s|
              && s[r.value.used - 1] == Newline
              && (forall j :: k < j < r.value.used - 1 ==> s[j] != Newline)
              && HeaderValue(s[k + 1..LineEnd(s, k + 1).value]) == Ok(r.value.value)
  {
    match LineEnd(s, k + 1)
    case None => Fatal("EOF")
    case Some(used) =>
      match HeaderValue(s[k + 1..used])
      case Fatal(reason) => Fatal(reason)
      case Ok(size) => Ok(Parsed(size, used))
  }

  /** A line ending `ReadString('\n')` stops at: LF or CR LF. */
  predicate LineEnding(ending: seq<byte>) {
    ending == [Newline] || ending == [CarriageReturn, Newline]
  }

  /** A header line: some newlines, `$`, the length as text, a line
      ending. */
  function HeaderBytes(padding: nat, num: string, ending: seq<byte>): seq<byte> {
    seq(padding, _ => Newline) + [Dollar] + AsBytes(num) + ending
  }

  /** The header a master writes: the decimal length and CR LF. */
  function BulkHeader(padding: nat, size: int): seq<byte> {
    HeaderBytes(padding, Itoa(size), [CarriageReturn, Newline])
  }

  /** Every header whose length text `Atoi` accepts parses, whatever the
      padding and line ending: `$5\n`, `$+5\r\n` and `$005\r\n` among
      them. The result is `Atoi`'s value, and the header ends with its
      line. */
  lemma BulkHeaderAccepts(padding: nat, num: string, ending: seq<byte>, rest: seq<byte>)
    requires AtoiAccepts(num) && LineEnding(ending)
    ensures ParseBulkHeader(HeaderBytes(padding, num, ending) + rest)
         == Ok(Parsed(Atoi(num).value, |HeaderBytes(padding, num, ending)|))
  {
    var s := HeaderBytes(padding, num, ending) + rest;
    var end := |HeaderBytes(padding, num, ending)|;
    AcceptedShape(num);
    HeaderLayout(padding, num, ending, rest);
    var line := s[padding + 1..end];
    AsStringAsBytes(num);
    AsStringAppend(AsBytes(num), ending);
    var tail := AsString(ending);
    assert tail == "\n" || tail == "\r\n";
    assert AsString(line) == num + tail;
    TrimSpaceSuffix(num, tail);
    ParseBulkHeaderAt(s, padding, end, Atoi(num).value);
  }

  /** In particular the header a master writes parses back to its length
      and its size. */
  lemma BulkHeaderRoundTrip(padding: nat, size: int, rest: seq<byte>)
    requires MinInt64 <= size <= MaxInt64
    ensures ParseBulkHeader(BulkHeader(padding, size) + rest)
         == Ok(Parsed(size, |BulkHeader(padding, size)|))
  {
    AtoiItoa(size);
    BulkHeaderAccepts(padding, Itoa(size), [CarriageReturn, Newline], rest);
  }

  /** A length text `Atoi` accepts is a sign or digits: no white space,
      no newline, every character a byte. */
  predicate NumberShape(num: string) {
    && |num| > 0 && !IsSpace(num[0]) && !IsSpace(num[|num| - 1])
    && (forall k :: 0 <= k < |num| ==> num[k] as int < 0x100 && num[k] != '\n' && num[k] != ' ')
  }

  lemma AcceptedShape(num: string)
    requires AtoiAccepts(num)
    ensures NumberShape(num)
  {
    var signed := num[0] == '+' || num[0] == '-';
    LeadingDigit(num);
    var digits := if signed then num[1..] else num;
    forall k | 0 <= k < |num|
      ensures num[k] == '+' || num[k] == '-' || IsDigit(num[k])
    {
      if signed && k > 0 {
        DecimalDigitAt(digits, k - 1);
      } else if !signed {
        DecimalDigitAt(num, k);
      }
    }
  }

  /** Where the parser finds the parts of a header line. */
  lemma HeaderLayout(padding: nat, num: string, ending: seq<byte>, rest: seq<byte>)
    requires NumberShape(num) && LineEnding(ending)
    ensures var s := HeaderBytes(padding, num, ending) + rest;
            var end := |HeaderBytes(padding, num, ending)|;
            && end == padding + 1 + |num| + |ending|
            && SkipNewlines(s, 0) == padding && s[padding] == Dollar
            && LineEnd(s, padding + 1) == Some(end)
            && s[padding + 1..end] == AsBytes(num) + ending
  {
    var s := HeaderBytes(padding, num, ending) + rest;
    var n := |num|;
    var end := padding + 1 + n + |ending|;
    var digits := AsBytes(num);
    assert forall j :: 0 <= j < padding ==> s[j] == Newline;
    forall j | padding < j < end - 1
      ensures s[j] != Newline
    {
      if j < padding + 1 + n {
        assert s[j] == digits[j - padding - 1] == num[j - padding - 1] as int;
      }
    }
    assert s[end - 1] == Newline;
    assert s[padding + 1..end] == digits + ending;
    SkipNewlinesAt(s, 0, padding);
    LineEndAt(s, padding + 1, end - 1);
  }

  /** The parser's result, given where the `$` and the end of its line are
      and what the line reads as. */
  lemma ParseBulkHeaderAt(s: seq<byte>, k: nat, end: nat, size: int)
    requires k < end <= |s| && SkipNewlines(s, 0) == k && s[k] == Dollar
    requires LineEnd(s, k + 1) == Some(end)
    requires HeaderValue(s[k + 1..end]) == Ok(size)
    ensures ParseBulkHeader(s) == Ok(Parsed(size, end))
  {
  }

  lemma {:induction false} SkipNewlinesAt(s: seq<byte>, i: nat, n: nat)
    requires i <= n < |s| && s[n] != Newline
    requires forall j :: i <= j < n ==> s[j] == Newline
    ensures SkipNewlines(s, i) == n
    decreases n - i
  {
    if i < n {
      SkipNewlinesAt(s, i + 1, n);
    }
  }

  lemma {:induction false} LineEndAt(s: seq<byte>, i: nat, n: nat)
    requires i <= n < |s| && s[n] == Newline
    requires forall j :: i <= j < n ==> s[j] != Newline
    ensures LineEnd(s, i) == Some(n + 1)
    decreases n - i
  {
    if i < n {
      LineEndAt(s, i + 1, n);
    }
  }

  /** `Itoa` spells a number with an optional minus and digits: no white
      space at its ends, no newline, every character a byte. */
  lemma ItoaShape(i: int)
    ensures var num := Itoa(i);
            && |num| > 0 && !IsSpace(num[0]) && !IsSpace(num[|num| - 1])
            && (forall k :: 0 <= k < |num| ==> num[k] as int < 0x100 && num[k] != '\n' && num[k] != ' ')
  {
    var num := Itoa(i);
    var digits := FormatNat(if i < 0 then -i else i);
    forall k | 0 <= k < |digits| ensures IsDigit(digits[k]) {
      DecimalDigitAt(digits, k);
    }
    if i < 0 {
      assert forall k :: 0 < k < |num| ==> num[k] == digits[k - 1];
    }
  }

  /** The copy loop of `saveRDB` as written: `grants[j]` is how many bytes
      the connection could hand to the `j`-th `Read`; each call returns up
      to the 32 MiB buffer, whatever the snapshot still needs. Running out
      of read grants or of stream is a read error. */
  datatype Copied = Copied(total: nat, last: nat)

  function CopyLoopAsWritten(s: seq<byte>, size: int, grants: seq<nat>, total: nat, last: nat): (r: Result<Copied>)
    requires total <= |s|
    requires total >= size ==> last <= total
    ensures r.Ok? ==> size <= r.value.total <= |s| && r.value.last <= r.value.total
    ensures r.Ok? && r.value.total > total ==> r.value.total - r.value.last < size && r.value.last <= RdbBufferSize
    ensures r.Ok? && r.value.total == total ==> r.value.last == last
    decreases |grants|
  {
    if total >= size then Ok(Copied(total, last))
    else if grants == [] || total == |s| then Fatal("read error")
    else
      var n := Min(Min(grants[0], |s| - total), RdbBufferSize);
      CopyLoopAsWritten(s, size, grants[1..], total + n, n)
  }

  function CopyRdbAsWritten(s: seq<byte>, size: int, grants: seq<nat>): (r: Result<Copied>)
    ensures r.Ok? ==> size <= r.value.total <= |s|
    ensures r.Ok? && r.value.total > 0 ==> r.value.total - r.value.last < size && r.value.last <= RdbBufferSize
  {
    CopyLoopAsWritten(s, size, grants, 0, 0)
  }

  /** When one read can return more than the snapshot still needs, the
      loop copies bytes past the announced length into the snapshot file:
      they are never appended to the live log, and the live stream resumes
      after them. */
  lemma CopyAsWrittenOvershoots(s: seq<byte>, size: nat)
    requires 0 < size < |s| <= RdbBufferSize
    ensures CopyRdbAsWritten(s, size, [|s|]) == Ok(Copied(|s|, |s|))
    ensures CopyRdbAsWritten(s, size, [|s|]).value.total > size
  {
    assert [|s|][1..] == [];
    assert CopyLoopAsWritten(s, size, [], |s|, |s|) == Ok(Copied(|s|, |s|));
  }

  /** The concrete case: a 3-byte snapshot followed by 2 bytes of live
      stream, delivered by one read. */
  lemma CopyAsWrittenOvershootExample()
    ensures CopyRdbAsWritten([1, 2, 3, 4, 5], 3, [5]) == Ok(Copied(5, 5))
  {
    CopyAsWrittenOvershoots([1, 2, 3, 4, 5], 3);
  }

  /** The copy loop with each read capped at what the snapshot still needs. */
  function CopyLoop(s: seq<byte>, size: int, grants: seq<nat>, total: nat): (r: Result<nat>)
    requires total <= |s| && total <= Max(size, 0)
    ensures r.Ok? ==> r.value == Max(size, 0) && r.value <= |s|
    decreases |grants|
  {
    if total >= size then Ok(total)
    else if grants == [] || total == |s| then Fatal("read error")
    else
      var n := Min(Min(Min(grants[0], |s| - total), RdbBufferSize), size - total);
      CopyLoop(s, size, grants[1..], total + n)
  }

  /** The corrected copy: the snapshot file receives exactly the announced
      number of bytes and everything after them is left to the live
      stream. */
  function CopyRdb(s: seq<byte>, size: int, grants: seq<nat>): (r: Result<nat>)
    ensures r.Ok? ==> r.value == Max(size, 0) <= |s|
  {
    CopyLoop(s, size, grants, 0)
  }

  /** Given enough reads that each deliver at least one byte, the corrected
      copy succeeds whenever the stream holds the announced bytes. */
  lemma {:induction false} CopyLoopCompletes(s: seq<byte>, size: int, grants: seq<nat>, total: nat)
    requires total <= |s| && total <= Max(size, 0) && size <= |s|
    requires |grants| >= size - total
    requires forall j :: 0 <= j < |grants| ==> grants[j] > 0
    ensures CopyLoop(s, size, grants, total).Ok?
    decreases |grants|
  {
    if total < size {
      CopyLoopCompletes(s, size, grants[1..], total + Min(Min(Min(grants[0], |s| - total), RdbBufferSize), size - total));
    }
  }

  // ---------------------------------------------------------------------
  // Live stream: received offset and the live log

  function Sum(ns: seq<nat>): nat
    decreases |ns|
  {
    if ns == [] then 0 else ns[0] + Sum(ns[1..])
  }

  /** `receivedOffset += int64(n)` once per chunk of `n` bytes. */
  function Advance(offset: int, chunks: seq<nat>): int
    decreases |chunks|
  {
    if chunks == [] then offset else Advance(offset + chunks[0], chunks[1..])
  }

  lemma {:induction false} AdvanceAddsSum(offset: int, chunks: seq<nat>)
    ensures Advance(offset, chunks) == offset + Sum(chunks)
    decreases |chunks|
  {
    if chunks != [] {
      AdvanceAddsSum(offset + chunks[0], chunks[1..]);
    }
  }

  lemma {:induction false} AdvanceAppend(offset: int, a: seq<nat>, b: seq<nat>)
    ensures Advance(offset, a + b) == Advance(Advance(offset, a), b)
    decreases |a|
  {
    if a == [] {
      assert a + b == b;
    } else {
      assert (a + b)[1..] == a[1..] + b;
      AdvanceAppend(offset + a[0], a[1..], b);
    }
  }

  /** The sizes of the chunks `saveAOF` grants from `live` starting at
      `pos`: each up to the 16 KiB buffer; end of stream ends the loop
      normally. */
  function AofChunks(live: seq<byte>, grants: seq<nat>, pos: nat): (chunks: seq<nat>)
    requires pos <= |live|
    ensures pos + Sum(chunks) <= |live|
    ensures forall j :: 0 <= j < |chunks| ==> chunks[j] <= AofBufferSize
    decreases |grants|
  {
    if grants == [] || pos == |live| then []
    else
      var n := Min(Min(grants[0], |live| - pos), AofBufferSize);
      [n] + AofChunks(live, grants[1..], pos + n)
  }

  /** The live log: the bytes appended since stream offset `base`, and the
      received offset after them. */
  datatype AofLog = AofLog(base: int, data: seq<byte>, offset: int)

  /** `saveAOF` started at offset `base`. */
  function SaveAof(base: int, live: seq<byte>, grants: seq<nat>): (log: AofLog)
    ensures log.base == base
    ensures |log.data| <= |live| && log.data == live[..|log.data|]
    ensures log.offset == base + |log.data|
  {
    var chunks := AofChunks(live, grants, 0);
    AdvanceAddsSum(base, chunks);
    AofLog(base, live[..Sum(chunks)], Advance(base, chunks))
  }

  /** What the rotating log reader yields when opened at `offset`. */
  function TailFrom(log: AofLog, offset: int): Option<seq<byte>> {
    if log.base <= offset <= log.base + |log.data| then Some(log.data[offset - log.base..]) else None
  }

  /** The session once the snapshot is saved and the live log is being
      written: `tailStart` is the offset `sendAOF` opens the log at. */
  datatype Session = Session(masterOffset: int, headerLength: nat, rdb: seq<byte>, tailStart: int, log: AofLog)

  /** The session accounts for the stream without loss or overlap: the
      snapshot is the bytes right after the header, the live log the
      bytes right after the snapshot, and the offset the log reader opens
      at is the first byte of the log. */
  predicate Delivered(stream: seq<byte>, t: Session) {
    var h := t.headerLength;
    && h + |t.rdb| + |t.log.data| <= |stream|
    && stream[h..h + |t.rdb|] == t.rdb
    && stream[h + |t.rdb|..h + |t.rdb| + |t.log.data|] == t.log.data
    && t.tailStart == t.log.base
    && t.log.offset == t.tailStart + |t.log.data|
  }

  /** What follows a header of `used` bytes announcing `size`: the
      snapshot copied by the corrected loop, then the live log saved from
      the next byte on, from stream offset `masterOffset`. */
  function Transfer(masterOffset: int, header: Parsed<int>, stream: seq<byte>, rdbGrants: seq<nat>, aofGrants: seq<nat>): (r: Result<Session>)
    requires header.used <= |stream|
    ensures r.Ok? ==> Delivered(stream, r.value)
    ensures r.Ok? ==> r.value.headerLength == header.used && |r.value.rdb| == Max(header.value, 0)
    ensures r.Ok? ==> r.value.masterOffset == r.value.tailStart == masterOffset
  {
    var rest := stream[header.used..];
    match CopyRdb(rest, header.value, rdbGrants)
    case Fatal(e) => Fatal(e)
    case Ok(total) =>
      var log := SaveAof(masterOffset, rest[total..], aofGrants);
      assert stream[header.used..header.used + total] == rest[..total];
      Ok(Session(masterOffset, header.used, rest[..total], masterOffset, log))
  }

  /** `StartRead` up to the point where the snapshot loader and the live
      log reader take over, with the corrected copy loop: the log reader
      opens at the master offset of the PSYNC reply, since `startOffset`
      is read right after `saveRDB`, before `saveAOF` advances the
      received offset. */
  function StartRead(reply: string, stream: seq<byte>, rdbGrants: seq<nat>, aofGrants: seq<nat>): (r: Result<Session>)
    ensures r.Ok? ==> MasterOffset(reply) == Ok(r.value.masterOffset) && r.value.tailStart == r.value.masterOffset
    ensures r.Ok? ==>
              && ParseBulkHeader(stream).Ok?
              && ParseBulkHeader(stream).value.used == r.value.headerLength
              && |r.value.rdb| == Max(ParseBulkHeader(stream).value.value, 0)
    ensures r.Ok? ==> Delivered(stream, r.value)
  {
    match MasterOffset(reply)
    case Fatal(e) => Fatal(e)
    case Ok(masterOffset) =>
      match ParseBulkHeader(stream)
      case Fatal(e) => Fatal(e)
      case Ok(header) => Transfer(masterOffset, header, stream, rdbGrants, aofGrants)
  }

  /** The log reader's first read returns everything the live log holds,
      and a reader at the received offset has nothing left to read. */
  lemma TailCoversLog(stream: seq<byte>, t: Session)
    requires Delivered(stream, t)
    ensures TailFrom(t.log, t.tailStart) == Some(t.log.data)
    ensures TailFrom(t.log, t.log.offset) == Some([])
  {
    assert t.log.data[0..] == t.log.data;
    assert t.log.data[|t.log.data|..] == [];
  }

  // ---------------------------------------------------------------------
  // Live stream: routing commands

  predicate IsSelect(name: string) {
    EqualFold(name, "select")
  }

  /** Entries sent to the channel, the database selected at the end, and
      the fatal error that stopped the loop, if any. */
  datatype Routed = Routed(entries: seq<Entry>, db: int, failure: Option<string>)

  /** `sendAOF`'s loop: `select <db>` (any case) switches the database and
      is not forwarded; every other command becomes a live entry for the
      current database. An empty command, a `select` without argument or
      with a non-integer one is fatal. */
  function RouteLive(db: int, cmds: seq<seq<string>>): (r: Routed)
    ensures forall i :: 0 <= i < |r.entries| ==>
              !r.entries[i].isBase && |r.entries[i].argv| > 0 && !IsSelect(r.entries[i].argv[0])
    ensures |r.entries| <= |cmds|
    ensures r.failure.None? <==> AllRoutable(cmds)
    decreases |cmds|
  {
    if cmds == [] then Routed([], db, None)
    else
      var argv := cmds[0];
      if |argv| == 0 then Routed([], db, Some("index out of range"))
      else if IsSelect(argv[0]) then
        if |argv| < 2 then Routed([], db, Some("index out of range"))
        else
          match Atoi(argv[1])
          case Fatal(e) => Routed([], db, Some(e))
          case Ok(newDb) => RouteLive(newDb, cmds[1..])
      else
        var rest := RouteLive(db, cmds[1..]);
        Routed([Entry(db, argv, false)] + rest.entries, rest.db, rest.failure)
  }

  /** A command the router accepts: non-empty, and a `select` carries an
      integer database. */
  predicate Routable(cmd: seq<string>) {
    |cmd| > 0 && (IsSelect(cmd[0]) ==> |cmd| >= 2 && Atoi(cmd[1]).Ok?)
  }

  /** Every command of `cmds` is routable. */
  predicate AllRoutable(cmds: seq<seq<string>>)
    decreases |cmds|
  {
    cmds == [] || (Routable(cmds[0]) && AllRoutable(cmds[1..]))
  }

  lemma {:induction false} AllRoutableEach(cmds: seq<seq<string>>)
    ensures AllRoutable(cmds) <==> forall i :: 0 <= i < |cmds| ==> Routable(cmds[i])
    decreases |cmds|
  {
    if cmds != [] {
      AllRoutableEach(cmds[1..]);
      assert forall i :: 1 <= i < |cmds| ==> cmds[i] == cmds[1..][i - 1];
    }
  }

  /** The loop stops at the first command it cannot route: the commands
      before it are routed as usual, and nothing after it is forwarded. */
  lemma StopsAtFirstUnroutable(db: int, a: seq<seq<string>>, cmd: seq<string>, b: seq<seq<string>>)
    requires AllRoutable(a)
    requires !Routable(cmd)
    ensures var r := RouteLive(db, a + [cmd] + b);
            && r.failure.Some?
            && r.entries == RouteLive(db, a).entries
            && r.db == DbAfter(db, a)
  {
    var first := RouteLive(db, a);
    RouteLiveMatchesReference(db, a);
    var tail := [cmd] + b;
    RouteLiveAppend(db, a, tail);
    assert a + [cmd] + b == a + tail;
    RouteLiveStuck(first.db, cmd, b);
    assert first.entries + [] == first.entries;
  }

  /** An unroutable command at the head stops the loop with nothing sent. */
  lemma RouteLiveStuck(db: int, cmd: seq<string>, b: seq<seq<string>>)
    requires !Routable(cmd)
    ensures var r := RouteLive(db, [cmd] + b);
            r.failure.Some? && r.entries == [] && r.db == db
  {
    assert ([cmd] + b)[0] == cmd;
  }

  /** A live command at the head is sent under the current database, ahead
      of whatever the rest routes to. */
  lemma RouteLiveCons(db: int, cmd: seq<string>, b: seq<seq<string>>)
    requires |cmd| > 0 && !IsSelect(cmd[0])
    ensures var rest := RouteLive(db, b);
            RouteLive(db, [cmd] + b) == Routed([Entry(db, cmd, false)] + rest.entries, rest.db, rest.failure)
  {
    assert ([cmd] + b)[0] == cmd;
    assert ([cmd] + b)[1..] == b;
  }

  /** The commands forwarded, in order. */
  function Forwarded(cmds: seq<seq<string>>): seq<seq<string>>
    decreases |cmds|
  {
    if cmds == [] then []
    else if |cmds[0]| > 0 && IsSelect(cmds[0][0]) then Forwarded(cmds[1..])
    else [cmds[0]] + Forwarded(cmds[1..])
  }

  /** The database in force after `cmds`: that of the last `select`, or
      `db` when there is none. */
  function DbAfter(db: int, cmds: seq<seq<string>>): int
    requires AllRoutable(cmds)
    decreases |cmds|
  {
    if cmds == [] then db
    else
      var last := cmds[|cmds| - 1];
      AllRoutableEach(cmds);
      AllRoutableEach(cmds[..|cmds| - 1]);
      assert Routable(last);
      if IsSelect(last[0]) then Atoi(last[1]).value else DbAfter(db, cmds[..|cmds| - 1])
  }

  function Argvs(es: seq<Entry>): seq<seq<string>>
    decreases |es|
  {
    if es == [] then [] else [es[0].argv] + Argvs(es[1..])
  }

  /** Routing a concatenation routes the first part, then the second from
      the database the first part left selected. */
  lemma {:induction false} RouteLiveAppend(db: int, a: seq<seq<string>>, b: seq<seq<string>>)
    requires RouteLive(db, a).failure.None?
    ensures RouteLive(db, a + b)
         == var first := RouteLive(db, a);
            var rest := RouteLive(first.db, b);
            Routed(first.entries + rest.entries, rest.db, rest.failure)
    decreases |a|
  {
    if a == [] {
      assert a + b == b;
    } else {
      assert (a + b)[0] == a[0];
      assert (a + b)[1..] == a[1..] + b;
      var argv := a[0];
      if IsSelect(argv[0]) {
        RouteLiveAppend(Atoi(argv[1]).value, a[1..], b);
      } else {
        RouteLiveAppend(db, a[1..], b);
        var first := RouteLive(db, a[1..]);
        var rest := RouteLive(first.db, b);
        assert [Entry(db, argv, false)] + (first.entries + rest.entries)
            == ([Entry(db, argv, false)] + first.entries) + rest.entries;
      }
    }
  }

  /** A stream of routable commands is routed without failure; the
      entries are exactly the non-`select` commands, in order, and the
      final database is that of the last `select`. */
  lemma {:induction false} RouteLiveMatchesReference(db: int, cmds: seq<seq<string>>)
    requires AllRoutable(cmds)
    ensures RouteLive(db, cmds).failure.None?
    ensures Argvs(RouteLive(db, cmds).entries) == Forwarded(cmds)
    ensures RouteLive(db, cmds).db == DbAfter(db, cmds)
    decreases |cmds|
  {
    if cmds != [] {
      var init := cmds[..|cmds| - 1];
      var last := cmds[|cmds| - 1];
      assert cmds == init + [last];
      AllRoutableEach(cmds);
      AllRoutableEach(init);
      assert Routable(last);
      RouteLiveMatchesReference(db, init);
      RouteLiveAppend(db, init, [last]);
      ForwardedAppend(init, [last]);
      ArgvsAppend(RouteLive(db, init).entries, RouteLive(RouteLive(db, init).db, [last]).entries);
      assert DbAfter(db, cmds) == (if IsSelect(last[0]) then Atoi(last[1]).value else DbAfter(db, init));
    }
  }

  lemma {:induction false} ForwardedAppend(a: seq<seq<string>>, b: seq<seq<string>>)
    ensures Forwarded(a + b) == Forwarded(a) + Forwarded(b)
    decreases |a|
  {
    if a == [] {
      assert a + b == b;
    } else {
      assert (a + b)[0] == a[0];
      assert (a + b)[1..] == a[1..] + b;
      ForwardedAppend(a[1..], b);
    }
  }

  lemma {:induction false} ArgvsAppend(a: seq<Entry>, b: seq<Entry>)
    ensures Argvs(a + b) == Argvs(a) + Argvs(b)
    decreases |a|
  {
    if a == [] {
      assert a + b == b;
    } else {
      assert (a + b)[0] == a[0];
      assert (a + b)[1..] == a[1..] + b;
      ArgvsAppend(a[1..], b);
    }
  }

  /** A command that is not a `select`, after a routable run `a`, becomes
      one live entry, unchanged, for the database `a` left selected
      (the loader's `repl-stream-db` when `a` has no `select`). */
  lemma LiveCommandAfterRun(replStreamDb: int, a: seq<seq<string>>, cmd: seq<string>, b: seq<seq<string>>)
    requires AllRoutable(a)
    requires |cmd| > 0 && !IsSelect(cmd[0])
    ensures var first := RouteLive(replStreamDb, a);
            var rest := RouteLive(DbAfter(replStreamDb, a), b);
            RouteLive(replStreamDb, a + [cmd] + b)
              == Routed(first.entries + [Entry(DbAfter(replStreamDb, a), cmd, false)] + rest.entries, rest.db, rest.failure)
  {
    var first := RouteLive(replStreamDb, a);
    var rest := RouteLive(DbAfter(replStreamDb, a), b);
    var e := Entry(DbAfter(replStreamDb, a), cmd, false);
    RouteLiveMatchesReference(replStreamDb, a);
    var tail := [cmd] + b;
    RouteLiveAppend(replStreamDb, a, tail);
    assert a + [cmd] + b == a + tail;
    RouteLiveCons(first.db, cmd, b);
    assert first.entries + ([e] + rest.entries) == first.entries + [e] + rest.entries;
  }
}

=== FILE: rdb.dfy ===
/** The snapshot loader (`rdb.Loader`): the 9-byte header, the top-level
    record stream, and the entries emitted per key, either the value's
    rewrite commands or one `restore` of a DUMP payload. */
module Rdb {
  import opened Results
  import opened Bytes
  import opened Strconv
  import opened Entries
  import opened Structure
  import Objects

  /** Top-level record tags. */
  const FlagIdle: byte := 0xf8
  const FlagFreq: byte := 0xf9
  const FlagAux: byte := 0xfa
  const FlagResizeDb: byte := 0xfb
  const FlagExpireMs: byte := 0xfc
  const FlagExpire: byte := 0xfd
  const FlagSelect: byte := 0xfe
  const FlagEof: byte := 0xff

  predicate IsFlag(tag: byte) {
    tag >= FlagIdle
  }

  const ReplStreamDbKey: string := "repl-stream-db"

  /** The RDB version written into DUMP payloads. */
  const DumpVersion: nat := 6

  /** The configuration the loader reads: `TargetRedisProtoMaxBulkLen` and
      `RDBRestoreCommandBehavior`. */
  datatype Config = Config(maxBulkLen: uint64, restoreBehavior: string)

  /** The CRC-64 digest of `utils.NewDigest`, which is not part of this
      model. */
  type Digest = seq<byte> -> uint64

  datatype Record =
    | Idle(idle: uint64)
    | Freq(freq: byte)
    | Aux(key: string, value: string)
    | ResizeDb(dbSize: uint64, expireSize: uint64)
    | ExpireMs(at: uint64)
    | ExpireSec(seconds: uint32)
    | SelectDb(db: uint64)
    | Eof
    | KeyValue(typeByte: byte, key: string, encoded: seq<byte>, obj: Objects.RedisObject)

  lemma Pow256Widths()
    ensures Pow256(2) == 0x1_0000
    ensures Pow256(4) == 0x1_0000_0000
    ensures Pow256(8) == TwoTo64
  {
    assert Pow256(1) == 0x100;
    assert Pow256(2) == 0x1_0000;
    assert Pow256(3) == 0x100_0000;
    assert Pow256(4) == 0x1_0000_0000;
    assert Pow256(5) == 0x100_0000_0000;
    assert Pow256(6) == 0x1_0000_0000_0000;
    assert Pow256(7) == 0x100_0000_0000_0000;
  }

  // ---------------------------------------------------------------------
  // Header

  /** `ParseRDB`'s header check: nine bytes, the magic `REDIS`, then a
      version that `strconv.Atoi` accepts; the result is the version. */
  function CheckHeader(file: seq<byte>): (r: Result<int>)
    ensures r.Ok? <==> |file| >= 9 && AsString(file[..5]) == "REDIS" && Atoi(AsString(file[5..9])).Ok?
    ensures r.Ok? ==> r.value == Atoi(AsString(file[5..9])).value
  {
    if |file| < 9 then Fatal("unexpected EOF")
    else if AsString(file[..5]) != "REDIS" then Fatal("verify magic string, invalid file format")
    else Atoi(AsString(file[5..9]))
  }

  /** Any four digits after the magic are accepted, leading zeros
      included, as in the `REDIS0009` of a version 9 file. */
  lemma CheckHeaderAcceptsDigits(file: seq<byte>)
    requires |file| >= 9 && AsString(file[..5]) == "REDIS" && IsDecimal(AsString(file[5..9]))
    ensures CheckHeader(file) == Ok(DecimalValue(AsString(file[5..9])))
  {
    var version := AsString(file[5..9]);
    DecimalValueBelow(version);
    assert Pow10(4) == 10000;
    LeadingDigit(version);
  }

  /** The header of a version 9 file, `REDIS0009`, is accepted as version 9. */
  lemma CheckHeaderVersion9()
    ensures CheckHeader([0x52, 0x45, 0x44, 0x49, 0x53, 0x30, 0x30, 0x30, 0x39]) == Ok(9)
  {
    var file: seq<byte> := [0x52, 0x45, 0x44, 0x49, 0x53, 0x30, 0x30, 0x30, 0x39];
    assert AsString(file[..5]) == "REDIS";
    var version := AsString(file[5..9]);
    assert version == "0009";
    assert IsDecimal(version[..1]) by { assert version[..1][..0] == []; }
    assert IsDecimal(version[..2]) by { assert version[..2][..1] == version[..1]; }
    assert IsDecimal(version[..3]) by { assert version[..3][..2] == version[..2]; }
    assert IsDecimal(version) by { assert version[..3] == version[..|version| - 1]; }
    assert DecimalValue(version) == 9 by {
      assert DecimalValue(version[..1]) == 0;
      assert DecimalValue(version[..2]) == 0 by { assert version[..2][..1] == version[..1]; }
      assert DecimalValue(version[..3]) == 0 by { assert version[..3][..2] == version[..2]; }
      assert version[..|version| - 1] == version[..3];
    }
    CheckHeaderAcceptsDigits(file);
  }

  // ---------------------------------------------------------------------
  // Reading records

  /** The record that follows tag `tag`, read from `t`. A tag that is not a
      flag is a value's type byte: the key follows, then the encoded value,
      whose bytes are exactly those the object decoder consumed. */
  function ReadBody(p: Primitives, tag: byte, t: seq<byte>): (r: Result<Parsed<Record>>)
    ensures r.Ok? ==> r.value.used <= |t|
    ensures r.Ok? ==> (r.value.value.Eof? <==> tag == FlagEof)
    ensures tag == FlagEof ==> r == Ok(Parsed(Eof, 0))
    ensures tag == FlagExpireMs ==> (r.Ok? <==> |t| >= 8)
    ensures r.Ok? && tag == FlagExpireMs ==>
              r.value.used == 8 && r.value.value.ExpireMs? && EncodeLE(r.value.value.at, 8) == t[..8]
    ensures tag == FlagExpire ==> (r.Ok? <==> |t| >= 4)
    ensures r.Ok? && tag == FlagExpire ==>
              r.value.used == 4 && r.value.value.ExpireSec? && EncodeLE(r.value.value.seconds, 4) == t[..4]
    ensures tag == FlagFreq ==> (r.Ok? <==> |t| > 0)
    ensures r.Ok? && tag == FlagFreq ==> r.value == Parsed(Freq(t[0]), 1)
    ensures tag == FlagSelect ==>
              (r.Ok? <==> ReadLength(p, t).Ok?)
              && (r.Ok? ==> r.value == Parsed(SelectDb(ReadLength(p, t).value.value), ReadLength(p, t).value.used))
    ensures tag == FlagIdle ==>
              (r.Ok? <==> ReadLength(p, t).Ok?)
              && (r.Ok? ==> r.value == Parsed(Idle(ReadLength(p, t).value.value), ReadLength(p, t).value.used))
    ensures r.Ok? && tag == FlagAux ==>
              var k := ReadString(p, t);
              && k.Ok?
              && var v := ReadString(p, t[k.value.used..]);
                 && v.Ok?
                 && r.value == Parsed(Aux(k.value.value, v.value.value), k.value.used + v.value.used)
    ensures r.Ok? && tag == FlagResizeDb ==>
              var dbSize := ReadLength(p, t);
              && dbSize.Ok?
              && var expireSize := ReadLength(p, t[dbSize.value.used..]);
                 && expireSize.Ok?
                 && r.value == Parsed(ResizeDb(dbSize.value.value, expireSize.value.value),
                                      dbSize.value.used + expireSize.value.used)
    ensures r.Ok? && !IsFlag(tag) ==>
              var key := ReadString(p, t);
              && key.Ok?
              && var body := t[key.value.used..];
                 var obj := Objects.ParseObject(p, body, tag, key.value.value);
                 && obj.Ok?
                 && r.value.value == KeyValue(tag, key.value.value, body[..obj.value.used], obj.value.value)
                 && r.value.used == key.value.used + obj.value.used
    ensures tag == FlagAux ==>
              (r.Ok? <==> ReadString(p, t).Ok? && ReadString(p, t[ReadString(p, t).value.used..]).Ok?)
    ensures tag == FlagResizeDb ==>
              (r.Ok? <==> ReadLength(p, t).Ok? && ReadLength(p, t[ReadLength(p, t).value.used..]).Ok?)
    ensures !IsFlag(tag) ==>
              (r.Ok? <==> && ReadString(p, t).Ok?
                          && Objects.ParseObject(p, t[ReadString(p, t).value.used..], tag, ReadString(p, t).value.value).Ok?)
  {
    if tag == FlagIdle then
      var n :- ReadLength(p, t);
      Ok(Parsed(Idle(n.value), n.used))
    else if tag == FlagFreq then
      var f :- ReadByte(t);
      Ok(Parsed(Freq(f.value), f.used))
    else if tag == FlagAux then ReadAux(p, t)
    else if tag == FlagResizeDb then ReadResizeDb(p, t)
    else if tag == FlagExpireMs then
      var at :- ReadUint64(t);
      Ok(Parsed(ExpireMs(at.value), at.used))
    else if tag == FlagExpire then
      var seconds :- ReadUint32(t);
      Ok(Parsed(ExpireSec(seconds.value), seconds.used))
    else if tag == FlagSelect then
      var db :- ReadLength(p, t);
      Ok(Parsed(SelectDb(db.value), db.used))
    else if tag == FlagEof then
      Ok(Parsed(Eof, 0))
    else ReadKeyValue(p, tag, t)
  }

  /** An aux record: two strings, one after the other. */
  function ReadAux(p: Primitives, t: seq<byte>): (r: Result<Parsed<Record>>)
    ensures r.Ok? <==> ReadString(p, t).Ok? && ReadString(p, t[ReadString(p, t).value.used..]).Ok?
    ensures r.Ok? ==>
              var k := ReadString(p, t).value;
              var v := ReadString(p, t[k.used..]).value;
              && k.used + v.used <= |t|
              && r.value == Parsed(Aux(k.value, v.value), k.used + v.used)
  {
    var k :- ReadString(p, t);
    var v :- ReadString(p, t[k.used..]);
    Ok(Parsed(Aux(k.value, v.value), k.used + v.used))
  }

  /** A resize record: two lengths, one after the other. */
  function ReadResizeDb(p: Primitives, t: seq<byte>): (r: Result<Parsed<Record>>)
    ensures r.Ok? <==> ReadLength(p, t).Ok? && ReadLength(p, t[ReadLength(p, t).value.used..]).Ok?
    ensures r.Ok? ==>
              var dbSize := ReadLength(p, t).value;
              var expireSize := ReadLength(p, t[dbSize.used..]).value;
              && dbSize.used + expireSize.used <= |t|
              && r.value == Parsed(ResizeDb(dbSize.value, expireSize.value), dbSize.used + expireSize.used)
  {
    var dbSize :- ReadLength(p, t);
    var expireSize :- ReadLength(p, t[dbSize.used..]);
    Ok(Parsed(ResizeDb(dbSize.value, expireSize.value), dbSize.used + expireSize.used))
  }

  /** A key record of type `tag`: the key, then the value the object
      decoder reads; the record keeps the bytes that decoder consumed. */
  function ReadKeyValue(p: Primitives, tag: byte, t: seq<byte>): (r: Result<Parsed<Record>>)
    ensures r.Ok? <==> && ReadString(p, t).Ok?
                       && Objects.ParseObject(p, t[ReadString(p, t).value.used..], tag, ReadString(p, t).value.value).Ok?
    ensures r.Ok? ==>
              var key := ReadString(p, t).value;
              var body := t[key.used..];
              var obj := Objects.ParseObject(p, body, tag, key.value).value;
              && key.used + obj.used <= |t|
              && r.value == Parsed(KeyValue(tag, key.value, body[..obj.used], obj.value), key.used + obj.used)
  {
    var key :- ReadString(p, t);
    var body := t[key.used..];
    var obj :- Objects.ParseObject(p, body, tag, key.value);
    Ok(Parsed(KeyValue(tag, key.value, body[..obj.used], obj.value), key.used + obj.used))
  }

  /** One record: its tag byte, then its body. */
  function ReadRecord(p: Primitives, s: seq<byte>): (r: Result<Parsed<Record>>)
    ensures r.Ok? <==> |s| > 0 && ReadBody(p, s[0], s[1..]).Ok?
    ensures r.Ok? ==> 0 < r.value.used <= |s|
    ensures r.Ok? ==> ReadBody(p, s[0], s[1..]) == Ok(Parsed(r.value.value, r.value.used - 1))
  {
    var tag :- ReadByte(s);
    var body :- ReadBody(p, tag.value, s[1..]);
    Ok(Parsed(body.value, 1 + body.used))
  }

  /** The records of a stream, up to and including the end-of-file record,
      or up to a record that cannot be read, with the reason. */
  datatype Scanned = Scanned(records: seq<Record>, failure: Option<string>)

  /** A reader of one record at the front of a byte stream. */
  type RecordReader = seq<byte> -> Result<Parsed<Record>>

  /** A reader that consumes at least one byte, and no more than exist. */
  ghost predicate Advances(read: RecordReader) {
    forall t :: read(t).Ok? ==> 0 < read(t).value.used <= |t|
  }

  /** `parseRDBEntry`'s reading loop for a given record reader: records are
      read one after another until the end-of-file record or a failure. */
  function ScanBy(read: RecordReader, s: seq<byte>): (r: Scanned)
    requires Advances(read)
    ensures r.failure.None? ==> |r.records| > 0 && r.records[|r.records| - 1].Eof?
    ensures forall i :: 0 <= i < |r.records| - 1 ==> !r.records[i].Eof?
    ensures read(s).Fatal? ==> r == Scanned([], Some(read(s).reason))
    ensures read(s).Ok? ==> |r.records| > 0 && r.records[0] == read(s).value.value
    decreases |s|
  {
    match read(s)
    case Fatal(e) => Scanned([], Some(e))
    case Ok(rec) =>
      if rec.value.Eof? then Scanned([Eof], None)
      else
        var rest := ScanBy(read, s[rec.used..]);
        Scanned([rec.value] + rest.records, rest.failure)
  }

  /** Where the `i`-th record scanned by `read` starts in `s`. */
  function OffsetBy(read: RecordReader, s: seq<byte>, i: nat): (o: nat)
    requires Advances(read) && i < |ScanBy(read, s).records|
    ensures o < |s|
    decreases i
  {
    if i == 0 then 0
    else
      var rec := read(s).value;
      rec.used + OffsetBy(read, s[rec.used..], i - 1)
  }

  /** The scanned records lie back to back from the start of the stream:
      record `i` is what `read` reads at its offset, and record `i + 1`
      starts where that read stopped. */
  lemma {:induction false} RecordAtBy(read: RecordReader, s: seq<byte>, i: nat)
    requires Advances(read) && i < |ScanBy(read, s).records|
    ensures var o := OffsetBy(read, s, i);
            read(s[o..]).Ok? && read(s[o..]).value.value == ScanBy(read, s).records[i]
    ensures i + 1 < |ScanBy(read, s).records| ==>
              OffsetBy(read, s, i + 1) == OffsetBy(read, s, i) + read(s[OffsetBy(read, s, i)..]).value.used
    decreases i
  {
    var rec := read(s).value;
    if i == 0 {
      assert s[0..] == s;
    } else {
      var t := s[rec.used..];
      RecordAtBy(read, t, i - 1);
      assert t[OffsetBy(read, t, i - 1)..] == s[OffsetBy(read, s, i)..];
    }
  }

  /** Where the read that stopped a failed scan starts in `s`. */
  function EndBy(read: RecordReader, s: seq<byte>): (o: nat)
    requires Advances(read) && ScanBy(read, s).failure.Some?
    ensures o <= |s|
    decreases |s|
  {
    match read(s)
    case Fatal(_) => 0
    case Ok(rec) => rec.used + EndBy(read, s[rec.used..])
  }

  /** A scan stops early only where a read fails: at the end offset,
      the read fails with the scan's reason. */
  lemma {:induction false} FailureAtBy(read: RecordReader, s: seq<byte>)
    requires Advances(read) && ScanBy(read, s).failure.Some?
    ensures read(s[EndBy(read, s)..]) == Fatal(ScanBy(read, s).failure.value)
    decreases |s|
  {
    if read(s).Fatal? {
      assert s[0..] == s;
    } else {
      var rec := read(s).value;
      var t := s[rec.used..];
      FailureAtBy(read, t);
      assert t[EndBy(read, t)..] == s[EndBy(read, s)..];
    }
  }

  /** The end offset of a failed scan is where its last record ends, or 0
      when it read none. */
  lemma {:induction false} EndAfterLastBy(read: RecordReader, s: seq<byte>)
    requires Advances(read) && ScanBy(read, s).failure.Some?
    ensures |ScanBy(read, s).records| == 0 ==> EndBy(read, s) == 0
    ensures |ScanBy(read, s).records| > 0 ==>
              var o := OffsetBy(read, s, |ScanBy(read, s).records| - 1);
              read(s[o..]).Ok? && EndBy(read, s) == o + read(s[o..]).value.used
    decreases |s|
  {
    var n := |ScanBy(read, s).records|;
    if n > 0 {
      var rec := read(s).value;
      var t := s[rec.used..];
      var m := |ScanBy(read, t).records|;
      if m > 0 {
        EndAfterLastBy(read, t);
        assert t[OffsetBy(read, t, m - 1)..] == s[OffsetBy(read, s, n - 1)..];
      } else {
        assert s[0..] == s;
      }
    }
  }

  /** `ReadRecord` as a record reader. */
  function RecordsOf(p: Primitives): (read: RecordReader)
    ensures Advances(read)
  {
    t => ReadRecord(p, t)
  }

  /** The records of the snapshot's body, read with `ReadRecord`. */
  function Scan(p: Primitives, s: seq<byte>): (r: Scanned)
    ensures r.failure.None? ==> |r.records| > 0 && r.records[|r.records| - 1].Eof?
    ensures forall i :: 0 <= i < |r.records| - 1 ==> !r.records[i].Eof?
    ensures ReadRecord(p, s).Fatal? ==> r == Scanned([], Some(ReadRecord(p, s).reason))
    ensures ReadRecord(p, s).Ok? ==> |r.records| > 0 && r.records[0] == ReadRecord(p, s).value.value
  {
    ScanBy(RecordsOf(p), s)
  }

  /** Where the `i`-th scanned record starts in `s`. */
  function ScanOffset(p: Primitives, s: seq<byte>, i: nat): (o: nat)
    requires i < |Scan(p, s).records|
    ensures o < |s|
  {
    OffsetBy(RecordsOf(p), s, i)
  }

  /** Every scanned record is what `ReadRecord` reads at its offset, the
      first at offset 0 and each next one where the previous read stopped:
      the records are the stream's bytes read back to back. */
  lemma ScanRecordAt(p: Primitives, s: seq<byte>, i: nat)
    ensures i < |Scan(p, s).records| ==>
              && ScanOffset(p, s, 0) == 0
              && var o := ScanOffset(p, s, i);
                 ReadRecord(p, s[o..]).Ok? && ReadRecord(p, s[o..]).value.value == Scan(p, s).records[i]
    ensures i + 1 < |Scan(p, s).records| ==>
              ScanOffset(p, s, i + 1) == ScanOffset(p, s, i) + ReadRecord(p, s[ScanOffset(p, s, i)..]).value.used
  {
    if i < |Scan(p, s).records| {
      RecordAtBy(RecordsOf(p), s, i);
    }
  }

  /** Where the read that stopped a failed scan starts in `s`. */
  function ScanEnd(p: Primitives, s: seq<byte>): (o: nat)
    requires Scan(p, s).failure.Some?
    ensures o <= |s|
  {
    EndBy(RecordsOf(p), s)
  }

  /** A scan that fails stops exactly where `ReadRecord` fails, with that
      read's reason: right where its last record ends, or at 0 when it
      read none. */
  lemma ScanFailureAt(p: Primitives, s: seq<byte>)
    ensures Scan(p, s).failure.Some? ==>
              ReadRecord(p, s[ScanEnd(p, s)..]) == Fatal(Scan(p, s).failure.value)
    ensures Scan(p, s).failure.Some? && |Scan(p, s).records| == 0 ==> ScanEnd(p, s) == 0
    ensures Scan(p, s).failure.Some? && |Scan(p, s).records| > 0 ==>
              var o := ScanOffset(p, s, |Scan(p, s).records| - 1);
              ReadRecord(p, s[o..]).Ok? && ScanEnd(p, s) == o + ReadRecord(p, s[o..]).value.used
  {
    if Scan(p, s).failure.Some? {
      FailureAtBy(RecordsOf(p), s);
      EndAfterLastBy(RecordsOf(p), s);
    }
  }

  // ---------------------------------------------------------------------
  // The DUMP payload and the restore command

  /** `createValueDump`: type byte, encoded value, the version 6 as two
      little-endian bytes, then the little-endian digest of all of that. */
  function CreateValueDump(digest: Digest, typeByte: byte, val: seq<byte>): (d: seq<byte>)
    ensures |d| == |val| + 11
    ensures d[0] == typeByte && d[1..|val| + 1] == val
    ensures d[|val| + 1..|val| + 3] == [6, 0]
    ensures DecodeLE(d[|val| + 3..]) == digest(d[..|val| + 3])
  {
    var payload := DumpPayload(typeByte, val);
    Pow256Widths();
    var d := payload + EncodeLE(digest(payload), 8);
    DumpTrailer(payload, digest(payload), d);
    assert d[1..|val| + 1] == d[..|val| + 3][1..|val| + 1];
    assert d[|val| + 1..|val| + 3] == d[..|val| + 3][|val| + 1..];
    d
  }

  /** Type byte, value and version: the part of a payload the digest covers. */
  function DumpPayload(typeByte: byte, val: seq<byte>): (p: seq<byte>)
    ensures |p| == |val| + 3
    ensures p[0] == typeByte && p[1..|val| + 1] == val && p[|val| + 1..] == [6, 0]
  {
    Pow256Widths();
    var version := EncodeLE(DumpVersion, 2);
    assert version == [6, 0];
    var p := [typeByte] + val + version;
    assert p[1..|val| + 1] == val;
    assert p[|val| + 1..] == version;
    p
  }

  lemma DumpTrailer(payload: seq<byte>, x: uint64, d: seq<byte>)
    requires d == payload + EncodeLE(x, 8)
    ensures |d| == |payload| + 8 && d[..|payload|] == payload && DecodeLE(d[|payload|..]) == x
  {
    Pow256Widths();
    assert d[|payload|..] == EncodeLE(x, 8);
    DecodeEncodeLE(x, 8);
  }

  datatype Dump = Dump(typeByte: byte, value: seq<byte>)

  /** What a target's `RESTORE` accepts: at least the type byte and the
      eleven trailer bytes, version 6, and a digest of everything before
      it. */
  function ParseDump(digest: Digest, d: seq<byte>): Option<Dump> {
    if |d| < 11 then None
    else
      var n := |d| - 11;
      if d[n + 1..n + 3] != [6, 0] || DecodeLE(d[n + 3..]) != digest(d[..n + 3]) then None
      else Some(Dump(d[0], d[1..n + 1]))
  }

  lemma DumpRoundTrip(digest: Digest, typeByte: byte, val: seq<byte>)
    ensures ParseDump(digest, CreateValueDump(digest, typeByte, val)) == Some(Dump(typeByte, val))
  {
  }

  /** Every payload the target accepts is the one `createValueDump` builds
      for its type byte and value. */
  lemma ParseDumpOnlyCreated(digest: Digest, d: seq<byte>)
    requires ParseDump(digest, d).Some?
    ensures var x := ParseDump(digest, d).value;
            CreateValueDump(digest, x.typeByte, x.value) == d
  {
    var n := |d| - 11;
    var payload := d[..n + 3];
    assert payload[1..n + 1] == d[1..n + 1];
    assert payload[n + 1..] == d[n + 1..n + 3];
    DumpOfParts(digest, payload, d[n + 3..]);
    assert d == payload + d[n + 3..];
  }

  /** A payload and a trailer holding its digest are what `createValueDump`
      builds for the payload's type byte and value. */
  lemma DumpOfParts(digest: Digest, payload: seq<byte>, trailer: seq<byte>)
    requires |payload| >= 3 && payload[|payload| - 2..] == [6, 0]
    requires |trailer| == 8 && DecodeLE(trailer) == digest(payload)
    ensures CreateValueDump(digest, payload[0], payload[1..|payload| - 2]) == payload + trailer
  {
    PayloadOfParts(payload);
    EncodeDecodeLE(trailer);
  }

  /** A payload is determined by its type byte and value. */
  lemma PayloadOfParts(p: seq<byte>)
    requires |p| >= 3 && p[|p| - 2..] == [6, 0]
    ensures DumpPayload(p[0], p[1..|p| - 2]) == p
  {
    var q := DumpPayload(p[0], p[1..|p| - 2]);
    assert q[1..|p| - 2] == p[1..|p| - 2];
    assert q[|p| - 2..] == p[|p| - 2..];
    assert q == [q[0]] + q[1..|p| - 2] + q[|p| - 2..];
    assert p == [p[0]] + p[1..|p| - 2] + p[|p| - 2..];
  }

  /** The `restore` arguments for a key: TTL argument, payload, then
      `replace` when the behaviour is "rewrite", then `absttl` when an
      expiry is pending. */
  function RestoreArgv(cfg: Config, key: string, expireAt: uint64, dump: string): seq<string> {
    ["restore", key, FormatNat(expireAt), dump]
      + (if cfg.restoreBehavior == "rewrite" then ["replace"] else [])
      + (if expireAt != 0 then ["absttl"] else [])
  }

  datatype Restore = Restore(key: string, ttl: nat, payload: string, replace: bool, absttl: bool)

  /** How the target reads a `restore` command with its optional flags in
      the order the loader writes them, the TTL spelled as `FormatUint`
      spells it: decimal digits without a leading zero. */
  function ParseRestore(argv: seq<string>): Option<Restore> {
    if || |argv| < 4 || argv[0] != "restore" || |argv[2]| == 0 || !IsDecimal(argv[2])
       || (argv[2][0] == '0' && |argv[2]| > 1)
    then None
    else
      var r := Restore(argv[1], DecimalValue(argv[2]), argv[3], false, false);
      var flags := argv[4..];
      if flags == [] then Some(r)
      else if flags == ["replace"] then Some(r.(replace := true))
      else if flags == ["absttl"] then Some(r.(absttl := true))
      else if flags == ["replace", "absttl"] then Some(r.(replace := true, absttl := true))
      else None
  }

  lemma RestoreArgvRoundTrip(cfg: Config, key: string, expireAt: uint64, dump: string)
    ensures ParseRestore(RestoreArgv(cfg, key, expireAt, dump))
         == Some(Restore(key, expireAt, dump, cfg.restoreBehavior == "rewrite", expireAt != 0))
  {
    var argv := RestoreArgv(cfg, key, expireAt, dump);
    assert argv[..4] == ["restore", key, FormatNat(expireAt), dump];
  }

  /** Conversely, a `restore` command whose flags agree with the
      configuration and the TTL is exactly the one the loader writes. */
  lemma ParseRestoreOnlyRestoreArgv(cfg: Config, argv: seq<string>)
    requires ParseRestore(argv).Some?
    requires var x := ParseRestore(argv).value;
             && x.ttl < TwoTo64
             && (x.replace <==> cfg.restoreBehavior == "rewrite")
             && (x.absttl <==> x.ttl != 0)
    ensures var x := ParseRestore(argv).value;
            argv == RestoreArgv(cfg, x.key, x.ttl, x.payload)
  {
    FormatNatOfDecimal(argv[2]);
    assert argv == argv[..4] + argv[4..];
  }

  // ---------------------------------------------------------------------
  // The loader state machine

  /** `replStreamDbId`, `nowDBId`, `expireAt`. */
  datatype Loader = Loader(replStreamDb: int, db: int, expireAt: uint64)

  const NewLoader: Loader := Loader(0, 0, 0)

  /** The entries emitted for one key. Values whose encoding is longer than
      the threshold are rewritten as commands, then `PEXPIREAT` if an expiry
      is pending; the others become one `restore`. */
  function KeyEntries(cfg: Config, digest: Digest, ld: Loader, typeByte: byte, key: string,
                      value: seq<byte>, obj: Objects.RedisObject): (es: seq<Entry>)
    ensures forall i :: 0 <= i < |es| ==> es[i].dbId == ld.db && es[i].isBase
    ensures |value| > cfg.maxBulkLen ==>
              var cmds := Objects.Rewrite(obj);
              && |es| == |cmds| + (if ld.expireAt != 0 then 1 else 0)
              && (forall i :: 0 <= i < |cmds| ==> es[i].argv == cmds[i])
              && (ld.expireAt != 0 ==> es[|es| - 1].argv == ["PEXPIREAT", key, FormatNat(ld.expireAt)])
    ensures |value| <= cfg.maxBulkLen ==>
              && |es| == 1
              && var r := ParseRestore(es[0].argv);
                 && r.Some?
                 && r.value.key == key && r.value.ttl == ld.expireAt
                 && (r.value.replace <==> cfg.restoreBehavior == "rewrite")
                 && (r.value.absttl <==> ld.expireAt != 0)
                 && ParseDump(digest, AsBytes(r.value.payload)) == Some(Dump(typeByte, value))
                 && r.value.payload == AsString(CreateValueDump(digest, typeByte, value))
  {
    if |value| > cfg.maxBulkLen then
      var cmds := Objects.Rewrite(obj);
      var rewritten := seq(|cmds|, i requires 0 <= i < |cmds| => Entry(ld.db, cmds[i], true));
      rewritten + (if ld.expireAt != 0 then [Entry(ld.db, ["PEXPIREAT", key, FormatNat(ld.expireAt)], true)] else [])
    else
      var dump := CreateValueDump(digest, typeByte, value);
      RestoreArgvRoundTrip(cfg, key, ld.expireAt, AsString(dump));
      AsBytesAsString(dump);
      DumpRoundTrip(digest, typeByte, value);
      [Entry(ld.db, RestoreArgv(cfg, key, ld.expireAt, AsString(dump)), true)]
  }

  /** The state change one record causes. */
  function Next(ld: Loader, rec: Record): (r: Result<Loader>)
    ensures r.Fatal? <==> rec.Aux? && rec.key == ReplStreamDbKey && Atoi(rec.value).Fatal?
    ensures r.Ok? && rec.Aux? && rec.key == ReplStreamDbKey ==>
              r.value == ld.(replStreamDb := Atoi(rec.value).value)
    ensures rec.ExpireMs? ==> r == Ok(ld.(expireAt := rec.at))
    ensures rec.ExpireSec? ==> r == Ok(ld.(expireAt := rec.seconds * 1000))
    ensures rec.SelectDb? ==> r == Ok(ld.(db := AsInt64(rec.db)))
    ensures rec.KeyValue? ==> r == Ok(ld.(expireAt := 0))
    ensures rec.Idle? || rec.Freq? || rec.ResizeDb? || rec.Eof? || (rec.Aux? && rec.key != ReplStreamDbKey) ==>
              r == Ok(ld)
  {
    match rec
    case Aux(key, value) =>
      if key == ReplStreamDbKey then
        var db :- Atoi(value);
        Ok(ld.(replStreamDb := db))
      else Ok(ld)
    case ExpireMs(at) => Ok(ld.(expireAt := at))
    case ExpireSec(seconds) => Ok(ld.(expireAt := seconds * 1000))
    case SelectDb(db) => Ok(ld.(db := AsInt64(db)))
    case KeyValue(_, _, _, _) => Ok(ld.(expireAt := 0))
    case _ => Ok(ld)
  }

  /** The entries one record emits: only a key record emits any, and
      those go to the current database as base entries. */
  function Emit(cfg: Config, digest: Digest, ld: Loader, rec: Record): (es: seq<Entry>)
    ensures !rec.KeyValue? ==> es == []
    ensures forall i :: 0 <= i < |es| ==> es[i].dbId == ld.db && es[i].isBase
  {
    match rec
    case KeyValue(typeByte, key, value, obj) => KeyEntries(cfg, digest, ld, typeByte, key, value, obj)
    case _ => []
  }

  /** Why the loader stopped: the end-of-file record (with the captured
      `repl-stream-db`), a fatal error, or records that ran out first. */
  datatype Stop = Done(replStreamDb: int) | Failed(reason: string) | Exhausted

  datatype LoadResult = LoadResult(entries: seq<Entry>, stop: Stop)

  /** `parseRDBEntry` over already-read records: the entries sent to the
      channel, in order, and how the loop ended. */
  function Load(cfg: Config, digest: Digest, ld: Loader, records: seq<Record>): (r: LoadResult)
    ensures forall i :: 0 <= i < |r.entries| ==> r.entries[i].isBase
    decreases |records|
  {
    if records == [] then LoadResult([], Exhausted)
    else if records[0].Eof? then LoadResult([], Done(ld.replStreamDb))
    else
      match Next(ld, records[0])
      case Fatal(e) => LoadResult([], Failed(e))
      case Ok(ld') =>
        var here := Emit(cfg, digest, ld, records[0]);
        var rest := Load(cfg, digest, ld', records[1..]);
        LoadResult(here + rest.entries, rest.stop)
  }

  /** `ParseRDB` over the bytes of the snapshot file. */
  function ParseRdb(p: Primitives, digest: Digest, cfg: Config, file: seq<byte>): (r: LoadResult)
    ensures !r.stop.Exhausted?
    ensures CheckHeader(file).Fatal? ==> r.entries == [] && r.stop.Failed?
    ensures r.stop.Done? ==> CheckHeader(file).Ok?
    ensures CheckHeader(file).Ok? ==>
              r.entries == Load(cfg, digest, NewLoader, Scan(p, file[9..]).records).entries
    ensures CheckHeader(file).Ok? ==>
              var scanned := Scan(p, file[9..]);
              var loaded := Load(cfg, digest, NewLoader, scanned.records);
              && (!loaded.stop.Exhausted? ==> r.stop == loaded.stop)
              && (loaded.stop.Exhausted? ==> scanned.failure.Some? && r.stop == Failed(scanned.failure.value))
    ensures forall i :: 0 <= i < |r.entries| ==> r.entries[i].isBase
  {
    match CheckHeader(file)
    case Fatal(e) => LoadResult([], Failed(e))
    case Ok(_) => LoadScanned(cfg, digest, Scan(p, file[9..]))
  }

  /** The loader run over the records a scan produced: when the records
      run out before the end-of-file record, the scan's failure is the
      reason. */
  function LoadScanned(cfg: Config, digest: Digest, scanned: Scanned): (r: LoadResult)
    requires scanned.failure.None? ==> |scanned.records| > 0 && scanned.records[|scanned.records| - 1].Eof?
    ensures var loaded := Load(cfg, digest, NewLoader, scanned.records);
            && r.entries == loaded.entries
            && (!loaded.stop.Exhausted? ==> r.stop == loaded.stop)
            && (loaded.stop.Exhausted? ==> scanned.failure.Some? && r.stop == Failed(scanned.failure.value))
  {
    var loaded := Load(cfg, digest, NewLoader, scanned.records);
    if loaded.stop.Exhausted? then
      LoadEndsAtEof(cfg, digest, NewLoader, scanned.records);
      LoadResult(loaded.entries, Failed(scanned.failure.GetOr("unexpected EOF")))
    else loaded
  }

  /** Records that end with the end-of-file record never run out: the
      loader stops at that record or at an earlier fatal one. */
  lemma {:induction false} LoadEndsAtEof(cfg: Config, digest: Digest, ld: Loader, recs: seq<Record>)
    ensures |recs| > 0 && recs[|recs| - 1].Eof? ==> !Load(cfg, digest, ld, recs).stop.Exhausted?
    decreases |recs|
  {
    if |recs| > 0 && !recs[0].Eof? && Next(ld, recs[0]).Ok? {
      var rest := recs[1..];
      assert |recs| > 0 && recs[|recs| - 1].Eof? ==> |rest| > 0 && rest[|rest| - 1] == recs[|recs| - 1];
      LoadEndsAtEof(cfg, digest, Next(ld, recs[0]).value, rest);
    }
  }

  /** What `ParseRDB` returns for a snapshot whose records all read up to
      the end-of-file record: the last `repl-stream-db` before it (0 when
      there is none), or a fatal error when one of those values is not an
      integer. */
  lemma ParseRdbReturnsReplStreamDb(p: Primitives, digest: Digest, cfg: Config, file: seq<byte>)
    requires CheckHeader(file).Ok? && Scan(p, file[9..]).failure.None?
    ensures var recs := Scan(p, file[9..]).records;
            var before := recs[..|recs| - 1];
            && (ValidAux(before) ==>
                  ParseRdb(p, digest, cfg, file)
                    == LoadResult(Load(cfg, digest, NewLoader, before).entries, Done(LastReplStreamDb(before))))
            && (!ValidAux(before) ==> ParseRdb(p, digest, cfg, file).stop.Failed?)
  {
    var scanned := Scan(p, file[9..]);
    assert ParseRdb(p, digest, cfg, file) == LoadScanned(cfg, digest, scanned);
    LoadScannedToEof(cfg, digest, scanned);
  }

  lemma LoadScannedToEof(cfg: Config, digest: Digest, scanned: Scanned)
    requires scanned.failure.None? && |scanned.records| > 0
    requires forall i :: 0 <= i < |scanned.records| - 1 ==> !scanned.records[i].Eof?
    requires scanned.records[|scanned.records| - 1].Eof?
    ensures var recs := scanned.records;
            var before := recs[..|recs| - 1];
            && (ValidAux(before) ==>
                  LoadScanned(cfg, digest, scanned)
                    == LoadResult(Load(cfg, digest, NewLoader, before).entries, Done(LastReplStreamDb(before))))
            && (!ValidAux(before) ==> LoadScanned(cfg, digest, scanned).stop.Failed?)
  {
    var recs := scanned.records;
    var before := recs[..|recs| - 1];
    assert recs == before + [Eof] + [];
    assert NoEof(before) by {
      forall i | 0 <= i < |before| ensures !before[i].Eof? {
        assert before[i] == recs[i];
      }
    }
    if ValidAux(before) {
      EofReturnsReplStreamDb(cfg, digest, before, []);
    } else {
      assert recs == before + [Eof];
      BadReplStreamDbIsFatal(cfg, digest, before, [Eof]);
    }
  }

  // ---------------------------------------------------------------------
  // Reference definitions: what the state is after a run of records

  predicate NoEof(recs: seq<Record>) {
    forall i :: 0 <= i < |recs| ==> !recs[i].Eof?
  }

  /** The expiry pending after `recs`: that of the last expire record not
      followed by a key record, or 0. */
  function PendingExpire(recs: seq<Record>): uint64
    decreases |recs|
  {
    if recs == [] then 0
    else
      match recs[|recs| - 1]
      case ExpireMs(at) => at
      case ExpireSec(seconds) => seconds * 1000
      case KeyValue(_, _, _, _) => 0
      case _ => PendingExpire(recs[..|recs| - 1])
  }

  /** The database selected by the last select record of `recs`, or 0. */
  function CurrentDb(recs: seq<Record>): int
    decreases |recs|
  {
    if recs == [] then 0
    else if recs[|recs| - 1].SelectDb? then AsInt64(recs[|recs| - 1].db)
    else CurrentDb(recs[..|recs| - 1])
  }

  predicate IsReplStreamDbAux(rec: Record) {
    rec.Aux? && rec.key == ReplStreamDbKey
  }

  /** Every `repl-stream-db` value in `recs` is an integer. */
  predicate ValidAux(recs: seq<Record>) {
    forall i :: 0 <= i < |recs| && IsReplStreamDbAux(recs[i]) ==> Atoi(recs[i].value).Ok?
  }

  /** The integer of the last `repl-stream-db` aux record of `recs`, or 0. */
  function LastReplStreamDb(recs: seq<Record>): int
    requires ValidAux(recs)
    decreases |recs|
  {
    if recs == [] then 0
    else if IsReplStreamDbAux(recs[|recs| - 1]) then Atoi(recs[|recs| - 1].value).value
    else LastReplStreamDb(recs[..|recs| - 1])
  }

  /** The state after `recs`, if none of them is fatal. */
  function Walk(ld: Loader, recs: seq<Record>): Result<Loader>
    decreases |recs|
  {
    if recs == [] then Ok(ld)
    else
      var ld' :- Next(ld, recs[0]);
      Walk(ld', recs[1..])
  }

  lemma {:induction false} WalkSnoc(ld: Loader, recs: seq<Record>, rec: Record)
    ensures Walk(ld, recs + [rec]) == (var x :- Walk(ld, recs); Next(x, rec))
    decreases |recs|
  {
    if recs == [] {
      assert [] + [rec] == [rec];
    } else {
      assert (recs + [rec])[1..] == recs[1..] + [rec];
      match Next(ld, recs[0])
      case Fatal(_) =>
      case Ok(ld') => WalkSnoc(ld', recs[1..], rec);
    }
  }

  /** From a fresh loader, the state after any run of records is the one
      the reference definitions describe: the last captured
      `repl-stream-db`, the last selected database, and the expiry of the
      last expire record not yet consumed by a key. The run fails exactly
      when a `repl-stream-db` value is not an integer. */
  lemma {:induction false} WalkFromNew(recs: seq<Record>)
    ensures Walk(NewLoader, recs).Ok? <==> ValidAux(recs)
    ensures ValidAux(recs) ==>
              Walk(NewLoader, recs).value == Loader(LastReplStreamDb(recs), CurrentDb(recs), PendingExpire(recs))
    decreases |recs|
  {
    if recs != [] {
      var init := recs[..|recs| - 1];
      var last := recs[|recs| - 1];
      assert recs == init + [last];
      WalkSnoc(NewLoader, init, last);
      WalkFromNew(init);
      assert ValidAux(recs) <==> ValidAux(init) && (IsReplStreamDbAux(last) ==> Atoi(last.value).Ok?) by {
        if ValidAux(init) && (IsReplStreamDbAux(last) ==> Atoi(last.value).Ok?) {
          forall i | 0 <= i < |recs| && IsReplStreamDbAux(recs[i])
            ensures Atoi(recs[i].value).Ok?
          {
            if i < |init| {
              assert recs[i] == init[i];
            }
          }
        }
        if ValidAux(recs) {
          forall i | 0 <= i < |init| && IsReplStreamDbAux(init[i])
            ensures Atoi(init[i].value).Ok?
          {
            assert recs[i] == init[i];
          }
        }
      }
    }
  }

  /** Loading `a ++ b`, with no end-of-file record in `a`, emits `a`'s
      entries and then those of `b` from the state `a` left behind. */
  lemma {:induction false} LoadSplit(cfg: Config, digest: Digest, ld: Loader, a: seq<Record>, b: seq<Record>)
    requires NoEof(a)
    requires Walk(ld, a).Ok?
    ensures Load(cfg, digest, ld, a).stop == Exhausted
    ensures Load(cfg, digest, ld, a + b)
         == var rest := Load(cfg, digest, Walk(ld, a).value, b);
            LoadResult(Load(cfg, digest, ld, a).entries + rest.entries, rest.stop)
    decreases |a|
  {
    if a == [] {
      assert a + b == b;
    } else {
      assert (a + b)[0] == a[0];
      assert (a + b)[1..] == a[1..] + b;
      var ld' := Next(ld, a[0]).value;
      LoadSplit(cfg, digest, ld', a[1..], b);
      var here := Emit(cfg, digest, ld, a[0]);
      var mid := Load(cfg, digest, ld', a[1..]).entries;
      var rest := Load(cfg, digest, Walk(ld, a).value, b).entries;
      assert here + (mid + rest) == (here + mid) + rest;
    }
  }

  /** A key record after a run `a` of records is emitted with the database
      of `a`'s last select record and the expiry of `a`'s last unconsumed
      expire record (none if a key record came after it), and leaves no
      pending expiry behind for the records that follow. */
  lemma KeyAfterRun(cfg: Config, digest: Digest, a: seq<Record>, key: Record, b: seq<Record>)
    requires NoEof(a) && ValidAux(a) && key.KeyValue?
    ensures var before := Load(cfg, digest, NewLoader, a).entries;
            var ld := Loader(LastReplStreamDb(a), CurrentDb(a), PendingExpire(a));
            var after := Load(cfg, digest, ld.(expireAt := 0), b);
            Load(cfg, digest, NewLoader, a + [key] + b)
              == LoadResult(before + KeyEntries(cfg, digest, ld, key.typeByte, key.key, key.encoded, key.obj)
                              + after.entries, after.stop)
  {
    WalkFromNew(a);
    LoadSplit(cfg, digest, NewLoader, a, [key] + b);
    assert a + [key] + b == a + ([key] + b);
    LoadKeyFirst(cfg, digest, Walk(NewLoader, a).value, key, b);
  }

  /** A key record at the front emits its entries, then the loader goes on
      with the pending expiry cleared. */
  lemma LoadKeyFirst(cfg: Config, digest: Digest, ld: Loader, key: Record, b: seq<Record>)
    requires key.KeyValue?
    ensures var after := Load(cfg, digest, ld.(expireAt := 0), b);
            Load(cfg, digest, ld, [key] + b)
              == LoadResult(KeyEntries(cfg, digest, ld, key.typeByte, key.key, key.encoded, key.obj)
                              + after.entries, after.stop)
  {
    assert ([key] + b)[1..] == b;
  }

  /** At the end-of-file record after a run `a`, the loader stops and
      returns the last `repl-stream-db` captured in `a`, or 0. */
  lemma EofReturnsReplStreamDb(cfg: Config, digest: Digest, a: seq<Record>, b: seq<Record>)
    requires NoEof(a) && ValidAux(a)
    ensures Load(cfg, digest, NewLoader, a + [Eof] + b)
         == LoadResult(Load(cfg, digest, NewLoader, a).entries, Done(LastReplStreamDb(a)))
  {
    WalkFromNew(a);
    LoadSplit(cfg, digest, NewLoader, a, [Eof] + b);
    assert a + [Eof] + b == a + ([Eof] + b);
  }

  /** A `repl-stream-db` value that is not an integer stops the loader
      with a fatal error. */
  lemma BadReplStreamDbIsFatal(cfg: Config, digest: Digest, a: seq<Record>, b: seq<Record>)
    requires NoEof(a) && !ValidAux(a)
    ensures Load(cfg, digest, NewLoader, a + b).stop.Failed?
  {
    WalkFromNew(a);
    LoadFailsWithWalk(cfg, digest, NewLoader, a, b);
  }

  lemma {:induction false} LoadFailsWithWalk(cfg: Config, digest: Digest, ld: Loader, a: seq<Record>, b: seq<Record>)
    requires NoEof(a) && Walk(ld, a).Fatal?
    ensures Load(cfg, digest, ld, a + b).stop.Failed?
    decreases |a|
  {
    assert (a + b)[0] == a[0];
    assert (a + b)[1..] == a[1..] + b;
    match Next(ld, a[0])
    case Fatal(_) =>
    case Ok(ld') => LoadFailsWithWalk(cfg, digest, ld', a[1..], b);
  }

  /** A run of records none of which is a key record emits nothing,
      however it ends. */
  lemma {:induction false} NonKeyRunsEmitNothing(cfg: Config, digest: Digest, ld: Loader, recs: seq<Record>)
    requires forall i :: 0 <= i < |recs| ==> !recs[i].KeyValue?
    ensures Load(cfg, digest, ld, recs).entries == []
    decreases |recs|
  {
    if recs != [] && !recs[0].Eof? && Next(ld, recs[0]).Ok? {
      NonKeyRunsEmitNothing(cfg, digest, Next(ld, recs[0]).value, recs[1..]);
    }
  }
}

=== FILE: results.dfy ===
/** Failure-compatible result types shared by every module of the model.
    `Fatal` stands for the source's `log.Panicf` / `log.PanicError`: the
    session aborts and nothing after the failure happens. */
module Results {

  datatype Option<+T> = None | Some(value: T) {

    /** The value, or `default` when there is none. */
    function GetOr(default: T): T {
      match this
      case Some(v) => v
      case None => default
    }
  }

  datatype Result<+T> = Ok(value: T) | Fatal(reason: string) {

    predicate IsFailure() {
      Fatal?
    }

    function PropagateFailure<U>(): Result<U>
      requires Fatal?
    {
      Fatal(reason)
    }

    function Extract(): T
      requires Ok?
    {
      value
    }
  }
}

=== FILE: sets.dfy ===
/** Set values of the snapshot (`SetObject`): decoding its two on-disk
    encodings and rewriting it as one `sadd` command. */
module Sets {
  import opened Results
  import opened Bytes
  import opened Structure

  /** Type bytes of the set encodings in the snapshot format. */
  const TypeSet: byte := 2
  const TypeSetIntset: byte := 11

  predicate IsSetType(t: byte) {
    t == TypeSet || t == TypeSetIntset
  }

  datatype SetObject = SetObject(key: string, elements: seq<string>)

  /** `readSet`: `make([]string, size)` with `size := int(length)` panics
      when the length converts to a negative `int`; otherwise slot `i` holds
      the `i`-th string read. */
  function ReadSet(p: Primitives, s: seq<byte>): (r: Result<Parsed<seq<string>>>)
    ensures r.Ok? ==> ReadLength(p, s).Ok? && ReadLength(p, s).value.value < TwoTo63
    ensures r.Ok? ==> |r.value.value| == ReadLength(p, s).value.value && r.value.used <= |s|
    ensures ReadLength(p, s).Ok? && ReadLength(p, s).value.value >= TwoTo63 ==> r.Fatal?
    ensures ReadLength(p, s).Ok? && ReadLength(p, s).value.value < TwoTo63 ==>
              var n := ReadLength(p, s).value;
              var xs := Repeat(StringItem(p), s[n.used..], n.value);
              && (r.Ok? <==> xs.Ok?)
              && (r.Ok? ==> r.value.used == n.used + xs.value.used)
  {
    var n :- ReadLength(p, s);
    var size := AsInt64(n.value);
    if size < 0 then Fatal("makeslice: len out of range")
    else
      var t := s[n.used..];
      RepeatStringsCount(p, t, size);
      var xs :- Repeat(StringItem(p), t, size);
      Ok(Parsed(xs.value, n.used + xs.used))
  }

  /** Element `i` of a plain set is the string read after the first `i`. */
  lemma ReadSetElementAt(p: Primitives, s: seq<byte>, i: nat)
    requires ReadSet(p, s).Ok? && i < |ReadSet(p, s).value.value|
    ensures var n := ReadLength(p, s).value;
            var before := Repeat(StringItem(p), s[n.used..], i);
            before.Ok? && ReadString(p, s[n.used..][before.value.used..]).Ok?
            && ReadSet(p, s).value.value[i] == ReadString(p, s[n.used..][before.value.used..]).value.value
  {
    var n := ReadLength(p, s).value;
    RepeatStringsAt(p, s[n.used..], n.value, i);
  }

  /** `SetObject.LoadFromBuffer`: dispatch on the type byte. */
  function Load(p: Primitives, s: seq<byte>, key: string, typeByte: byte): (r: Result<Parsed<SetObject>>)
    ensures !IsSetType(typeByte) ==> r.Fatal?
    ensures r.Ok? ==> r.value.value.key == key && r.value.used <= |s|
    ensures typeByte == TypeSetIntset ==>
              (r.Ok? <==> ReadIntset(p, s).Ok?)
              && (r.Ok? ==> r.value == Parsed(SetObject(key, ReadIntset(p, s).value.value), ReadIntset(p, s).value.used))
    ensures typeByte == TypeSet ==>
              (r.Ok? <==> ReadSet(p, s).Ok?)
              && (r.Ok? ==> r.value == Parsed(SetObject(key, ReadSet(p, s).value.value), ReadSet(p, s).value.used))
  {
    var elements :-
      if typeByte == TypeSet then ReadSet(p, s)
      else if typeByte == TypeSetIntset then ReadIntset(p, s)
      else Fatal("unknown set type");
    Ok(Parsed(SetObject(key, elements.value), elements.used))
  }

  /** `SetObject.Rewrite`. */
  function Rewrite(o: SetObject): (cmds: seq<seq<string>>)
    ensures |cmds| == 1 && |cmds[0]| >= 2
    ensures cmds[0][0] == "sadd" && cmds[0][1] == o.key && cmds[0][2..] == o.elements
  {
    [["sadd", o.key] + o.elements]
  }

  /** What `SADD key v1 .. vn` does to a set on the target. */
  function Sadd(members: set<string>, values: seq<string>): set<string>
    decreases |values|
  {
    if values == [] then members else Sadd(members + {values[0]}, values[1..])
  }

  lemma {:induction false} SaddAddsAll(members: set<string>, values: seq<string>)
    ensures forall x :: x in Sadd(members, values) <==> x in members || x in values
    decreases |values|
  {
    if values != [] {
      SaddAddsAll(members + {values[0]}, values[1..]);
      assert forall x :: x in values <==> x == values[0] || x in values[1..];
    }
  }

  /** Replaying the rewrite against a missing key yields exactly the
      decoded members. */
  lemma RewriteReplayMembers(o: SetObject)
    ensures forall x :: x in Sadd({}, Rewrite(o)[0][2..]) <==> x in o.elements
  {
    SaddAddsAll({}, o.elements);
  }
}

=== FILE: strconv.dfy ===
/** The pieces of Go's `strconv` and `strings` packages the core relies on:
    decimal formatting and parsing (`FormatUint`, `Itoa`, `Atoi`),
    `strings.TrimSpace`, `strings.Split` and `strings.EqualFold`. */
module Strconv {
  import opened Results

  const MinInt64: int := -0x8000_0000_0000_0000
  const MaxInt64: int := 0x7fff_ffff_ffff_ffff

  predicate IsDigit(c: char) {
    '0' <= c <= '9'
  }

  /** Every character of `s` is a decimal digit. */
  predicate IsDecimal(s: string)
    decreases |s|
  {
    s == [] || (IsDecimal(s[..|s| - 1]) && IsDigit(s[|s| - 1]))
  }

  lemma {:induction false} DecimalDigitAt(s: string, i: nat)
    requires IsDecimal(s) && i < |s|
    ensures IsDigit(s[i])
    decreases |s|
  {
    if i < |s| - 1 {
      DecimalDigitAt(s[..|s| - 1], i);
    }
  }


  function DigitValue(c: char): (d: nat)
    requires IsDigit(c)
    ensures d < 10
  {
    c as int - '0' as int
  }

  function DigitChar(d: nat): (c: char)
    requires d < 10
    ensures IsDigit(c) && DigitValue(c) == d
  {
    ('0' as int + d) as char
  }

  /** The value of a string of decimal digits, most significant first. */
  function DecimalValue(s: string): nat
    requires IsDecimal(s)
    decreases |s|
  {
    if s == [] then 0 else 10 * DecimalValue(s[..|s| - 1]) + DigitValue(s[|s| - 1])
  }

  /** `strconv.FormatUint(n, 10)`: the canonical decimal spelling of `n`,
      which reads back as `n` and has no leading zero. */
  function FormatNat(n: nat): (s: string)
    ensures |s| > 0 && IsDecimal(s)
    ensures DecimalValue(s) == n
    ensures s[0] == '0' ==> n == 0 && |s| == 1
    decreases n
  {
    if n < 10 then [DigitChar(n)]
    else
      var prefix := FormatNat(n / 10);
      var s := prefix + [DigitChar(n % 10)];
      assert s[..|s| - 1] == prefix;
      s
  }

  /** A non-empty digit string without a leading zero is zero-free at the
      front, so its value is positive. */
  lemma {:induction false} LeadingDigitPositive(s: string)
    requires |s| > 0 && IsDecimal(s) && s[0] != '0'
    ensures DecimalValue(s) > 0
    decreases |s|
  {
    if |s| > 1 {
      LeadingDigitPositive(s[..|s| - 1]);
    }
  }

  /** Canonical digit strings are exactly the images of `FormatNat`. */
  lemma {:induction false} FormatNatOfDecimal(s: string)
    requires |s| > 0 && IsDecimal(s)
    requires s[0] == '0' ==> |s| == 1
    ensures FormatNat(DecimalValue(s)) == s
    decreases |s|
  {
    var n := DecimalValue(s);
    if |s| == 1 {
      assert s[..|s| - 1] == [];
      assert DecimalValue(s[..|s| - 1]) == 0;
      assert n == DigitValue(s[0]);
      assert s == [DigitChar(n)];
    } else {
      var prefix := s[..|s| - 1];
      LeadingDigitPositive(prefix);
      FormatNatOfDecimal(prefix);
      assert n / 10 == DecimalValue(prefix);
      assert n % 10 == DigitValue(s[|s| - 1]);
      assert s == prefix + [s[|s| - 1]];
    }
  }

  /** `strconv.Itoa(i)`. */
  function Itoa(i: int): (s: string)
    ensures |s| > 0
    ensures i >= 0 ==> s == FormatNat(i)
    ensures i < 0 ==> s == "-" + FormatNat(-i)
  {
    if i < 0 then "-" + FormatNat(-i) else FormatNat(i)
  }

  /** What `strconv.Atoi` accepts on a 64-bit platform: an optional `+`
      or `-`, then one or more decimal digits, with a signed value that fits
      in an `int64`. */
  predicate AtoiAccepts(s: string) {
    || (|s| > 0 && IsDecimal(s) && DecimalValue(s) <= MaxInt64)
    || (|s| > 1 && s[0] == '+' && IsDecimal(s[1..]) && DecimalValue(s[1..]) <= MaxInt64)
    || (|s| > 1 && s[0] == '-' && IsDecimal(s[1..]) && DecimalValue(s[1..]) <= -MinInt64)
  }

  /** `strconv.Atoi(s)` on a 64-bit platform: an optional `+` or `-`, then
      one or more decimal digits, with a value that fits in an `int64`;
      anything else is an error. */
  function Atoi(s: string): (r: Result<int>)
    ensures r.Ok? <==> AtoiAccepts(s)
    ensures r.Ok? ==> MinInt64 <= r.value <= MaxInt64
    ensures r.Ok? ==> |s| > 0 && (IsDigit(s[0]) || s[0] == '+' || s[0] == '-')
    ensures r.Ok? && IsDigit(s[0]) ==> IsDecimal(s) && r.value == DecimalValue(s)
    ensures r.Ok? && (s[0] == '+' || s[0] == '-') ==> |s| > 1 && IsDecimal(s[1..])
    ensures r.Ok? && s[0] == '+' ==> r.value == DecimalValue(s[1..])
    ensures r.Ok? && s[0] == '-' ==> r.value == 0 - DecimalValue(s[1..])
  {
    var signed := |s| > 0 && (s[0] == '+' || s[0] == '-');
    var digits := if signed then s[1..] else s;
    LeadingDigit(s);
    if |digits| == 0 || !IsDecimal(digits) then Fatal("strconv.Atoi: invalid syntax")
    else
      var magnitude: int := DecimalValue(digits);
      var v := if signed && s[0] == '-' then -magnitude else magnitude;
      if v < MinInt64 || v > MaxInt64 then Fatal("strconv.Atoi: value out of range")
      else DecimalDigitAt(digits, 0); Ok(v)
  }

  /** A digit string starts with a digit, not a sign. */
  lemma LeadingDigit(s: string)
    ensures |s| > 0 && IsDecimal(s) ==> IsDigit(s[0])
  {
    if |s| > 0 && IsDecimal(s) {
      DecimalDigitAt(s, 0);
    }
  }

  /** Whatever `Itoa` prints for an `int64`, `Atoi` reads back. */
  lemma AtoiItoa(i: int)
    requires MinInt64 <= i <= MaxInt64
    ensures Atoi(Itoa(i)) == Ok(i)
  {
    var s := Itoa(i);
    if i < 0 {
      assert s[1..] == FormatNat(-i);
    } else {
      DecimalDigitAt(s, 0);
    }
  }

  /** Ten to the power `n`: one more than the largest `n`-digit value. */
  function Pow10(n: nat): nat {
    if n == 0 then 1 else 10 * Pow10(n - 1)
  }

  lemma {:induction false} DecimalValueBelow(s: string)
    requires IsDecimal(s)
    ensures DecimalValue(s) < Pow10(|s|)
    decreases |s|
  {
    if s != [] {
      DecimalValueBelow(s[..|s| - 1]);
    }
  }

  /** Go's ASCII white space: tab, newline, vertical tab, form feed,
      carriage return and space. */
  predicate IsSpace(c: char) {
    c == ' ' || 9 <= c as int <= 13
  }

  /** Number of leading white-space characters of `s`. */
  function LeadingSpaces(s: string): (n: nat)
    ensures n <= |s|
    ensures forall i :: 0 <= i < n ==> IsSpace(s[i])
    ensures n < |s| ==> !IsSpace(s[n])
    decreases |s|
  {
    if s == [] || !IsSpace(s[0]) then 0 else 1 + LeadingSpaces(s[1..])
  }

  /** Number of trailing white-space characters of `s`. */
  function TrailingSpaces(s: string): (n: nat)
    ensures n <= |s|
    ensures forall i :: |s| - n <= i < |s| ==> IsSpace(s[i])
    ensures n < |s| ==> !IsSpace(s[|s| - n - 1])
    decreases |s|
  {
    if s == [] || !IsSpace(s[|s| - 1]) then 0 else 1 + TrailingSpaces(s[..|s| - 1])
  }

  /** `r` sits at index `i` of `s` with only white space around it. */
  predicate TrimmedAt(s: string, r: string, i: nat) {
    && i + |r| <= |s|
    && s[i..i + |r|] == r
    && (forall k :: 0 <= k < i ==> IsSpace(s[k]))
    && (forall k :: i + |r| <= k < |s| ==> IsSpace(s[k]))
  }

  /** `strings.TrimSpace` over ASCII white space: `s` with its leading and
      trailing white space cut away. */
  function TrimSpace(s: string): (r: string)
    ensures |r| <= |s|
    ensures |r| > 0 ==> !IsSpace(r[0]) && !IsSpace(r[|r| - 1])
  {
    var lead := LeadingSpaces(s);
    var rest := s[lead..];
    rest[..|rest| - TrailingSpaces(rest)]
  }

  /** What `TrimSpace` keeps is a slice of `s` with only white space
      around it: the longest one that neither starts nor ends with white
      space. */
  lemma TrimSpaceCutsSpace(s: string)
    ensures exists i :: TrimmedAt(s, TrimSpace(s), i)
  {
    var lead := LeadingSpaces(s);
    var rest := s[lead..];
    var r := TrimSpace(s);
    assert r == rest[..|rest| - TrailingSpaces(rest)];
    assert s[lead..lead + |r|] == r;
    assert TrimmedAt(s, r, lead);
  }

  /** Trimming after appending white space gives back the unpadded string. */
  lemma {:induction false} TrimSpaceSuffix(s: string, pad: string)
    requires |s| > 0 && !IsSpace(s[0]) && !IsSpace(s[|s| - 1])
    requires forall k :: 0 <= k < |pad| ==> IsSpace(pad[k])
    ensures TrimSpace(s + pad) == s
    decreases |pad|
  {
    var t := s + pad;
    assert LeadingSpaces(t) == 0;
    TrailingPad(s, pad);
    assert t[0..][..|t| - |pad|] == s;
  }

  lemma {:induction false} TrailingPad(s: string, pad: string)
    requires |s| > 0 && !IsSpace(s[|s| - 1])
    requires forall k :: 0 <= k < |pad| ==> IsSpace(pad[k])
    ensures TrailingSpaces(s + pad) == |pad|
    decreases |pad|
  {
    if pad != [] {
      var t := s + pad;
      assert t[..|t| - 1] == s + pad[..|pad| - 1];
      TrailingPad(s, pad[..|pad| - 1]);
    } else {
      assert s + pad == s;
    }
  }

  /** `strings.Split(s, sep)` for a one-character separator: the pieces
      between consecutive separators, one more piece than separators. */
  function Split(s: string, sep: char): (r: seq<string>)
    ensures |r| > 0
    decreases |s|
  {
    if s == [] then [[]]
    else if s[0] == sep then [[]] + Split(s[1..], sep)
    else
      var t := Split(s[1..], sep);
      [[s[0]] + t[0]] + t[1..]
  }

  /** `strings.Join(parts, sep)`. */
  function Join(parts: seq<string>, sep: char): string
    decreases |parts|
  {
    if parts == [] then []
    else if |parts| == 1 then parts[0]
    else parts[0] + [sep] + Join(parts[1..], sep)
  }

  /** Joining the pieces of a split with the same separator restores the
      original string. */
  lemma {:induction false} JoinSplit(s: string, sep: char)
    ensures Join(Split(s, sep), sep) == s
    decreases |s|
  {
    if s != [] {
      var rest := s[1..];
      JoinSplit(rest, sep);
      var t := Split(rest, sep);
      assert s == [s[0]] + rest;
      if s[0] == sep {
        assert Split(s, sep) == [[]] + t;
        JoinCons([], t, sep);
      } else {
        assert Split(s, sep) == [[s[0]] + t[0]] + t[1..];
        JoinExtendHead(s[0], t, sep);
      }
    }
  }

  lemma JoinCons(x: string, ys: seq<string>, sep: char)
    requires ys != []
    ensures Join([x] + ys, sep) == x + [sep] + Join(ys, sep)
  {
    assert ([x] + ys)[1..] == ys;
  }

  /** Prepending a character to the first part prepends it to the join. */
  lemma JoinExtendHead(c: char, t: seq<string>, sep: char)
    requires t != []
    ensures Join([[c] + t[0]] + t[1..], sep) == [c] + Join(t, sep)
  {
    if |t| == 1 {
      assert [[c] + t[0]] + t[1..] == [[c] + t[0]];
    } else {
      JoinCons([c] + t[0], t[1..], sep);
      assert t == [t[0]] + t[1..];
      JoinCons(t[0], t[1..], sep);
    }
  }

  /** A string without the separator splits into itself alone. */
  lemma {:induction false} SplitNoSeparator(s: string, sep: char)
    requires forall k :: 0 <= k < |s| ==> s[k] != sep
    ensures Split(s, sep) == [s]
    decreases |s|
  {
    if s != [] {
      SplitNoSeparator(s[1..], sep);
      assert s == [s[0]] + s[1..];
    }
  }

  /** Splitting around one separator splits each side independently. */
  lemma {:induction false} SplitAround(a: string, sep: char, b: string)
    ensures Split(a + [sep] + b, sep) == Split(a, sep) + Split(b, sep)
    decreases |a|
  {
    var s := a + [sep] + b;
    if a == [] {
      assert s[1..] == b;
    } else {
      assert s[1..] == a[1..] + [sep] + b;
      SplitAround(a[1..], sep, b);
      if a[0] != sep {
        ExtendFirst(a[0], Split(a[1..], sep), Split(b, sep));
      }
    }
  }

  /** Extending the first piece of a concatenation extends the first piece
      of its left part. */
  lemma ExtendFirst(c: char, u: seq<string>, v: seq<string>)
    requires |u| > 0
    ensures var t := u + v;
            [[c] + t[0]] + t[1..] == ([[c] + u[0]] + u[1..]) + v
  {
    var t := u + v;
    assert t[0] == u[0];
    assert t[1..] == u[1..] + v;
  }

  /** Three separator-free pieces joined by the separator split back into
      those pieces. */
  lemma SplitThree(a: string, b: string, c: string, sep: char)
    requires forall k :: 0 <= k < |a| ==> a[k] != sep
    requires forall k :: 0 <= k < |b| ==> b[k] != sep
    requires forall k :: 0 <= k < |c| ==> c[k] != sep
    ensures Split(a + [sep] + b + [sep] + c, sep) == [a, b, c]
  {
    SplitNoSeparator(a, sep);
    SplitNoSeparator(b, sep);
    SplitNoSeparator(c, sep);
    SplitAround(b, sep, c);
    SplitAround(a, sep, b + [sep] + c);
    assert a + [sep] + b + [sep] + c == a + [sep] + (b + [sep] + c);
  }

  /** No piece of a split contains the separator. */
  predicate Excludes(pieces: seq<string>, sep: char) {
    forall i, k :: 0 <= i < |pieces| && 0 <= k < |pieces[i]| ==> pieces[i][k] != sep
  }

  lemma {:induction false} SplitPiecesExcludeSeparator(s: string, sep: char)
    ensures Excludes(Split(s, sep), sep)
    decreases |s|
  {
    if s != [] {
      SplitPiecesExcludeSeparator(s[1..], sep);
      var t := Split(s[1..], sep);
      var r := Split(s, sep);
      forall i, k | 0 <= i < |r| && 0 <= k < |r[i]|
        ensures r[i][k] != sep
      {
        if s[0] == sep {
          assert r == [[]] + t;
          assert r[i] == t[i - 1];
        } else {
          assert r == [[s[0]] + t[0]] + t[1..];
          if i == 0 {
            assert r[0] == [s[0]] + t[0];
            if k > 0 {
              assert r[0][k] == t[0][k - 1];
            }
          } else {
            assert r[i] == t[i];
          }
        }
      }
    }
  }

  function Lower(c: char): char {
    if 'A' <= c <= 'Z' then (c as int + 32) as char else c
  }

  /** `strings.EqualFold` restricted to ASCII case folding. */
  predicate EqualFold(a: string, b: string) {
    |a| == |b| && forall i :: 0 <= i < |a| ==> Lower(a[i]) == Lower(b[i])
  }
}

=== FILE: structure.dfy ===
/** The primitive snapshot decoders, seen from their callers: each one
    starts at a byte cursor, returns a value and how many bytes it consumed,
    or fails fatally. The length, string and container decoders are not
    part of this model; they are supplied as a `Primitives` value. The
    fixed-width readers are spelled out, as the snapshot format lays them
    out little-endian. */
module Structure {
  import opened Results
  import opened Bytes

  /** A decoded value and the number of bytes consumed to decode it. */
  datatype Parsed<+T> = Parsed(value: T, used: nat)

  /** The decoders the core calls without seeing their bodies. `other`
      stands for the registry's decoders of the value types other than
      lists and sets (strings, hashes, sorted sets, streams, modules):
      given the type byte and key it yields that value's rewrite commands. */
  datatype Primitives = Primitives(
    length: seq<byte> -> Result<Parsed<uint64>>,
    str: seq<byte> -> Result<Parsed<string>>,
    zipList: seq<byte> -> Result<Parsed<seq<string>>>,
    listpack: seq<byte> -> Result<Parsed<seq<string>>>,
    intset: seq<byte> -> Result<Parsed<seq<string>>>,
    other: (seq<byte>, byte, string) -> Result<Parsed<seq<seq<string>>>>)

  /** A decoder that claims more bytes than the cursor holds has read past
      the end of its input, which the decoders report as a fatal error. */
  function Within<T>(r: Result<Parsed<T>>, s: seq<byte>): (q: Result<Parsed<T>>)
    ensures q.Ok? <==> r.Ok? && r.value.used <= |s|
    ensures q.Ok? ==> q == r
  {
    if r.Ok? && r.value.used > |s| then Fatal("unexpected EOF") else r
  }

  /** `structure.ReadByte`. */
  function ReadByte(s: seq<byte>): (r: Result<Parsed<byte>>)
    ensures r.Ok? <==> |s| > 0
    ensures r.Ok? ==> r.value == Parsed(s[0], 1)
  {
    if |s| == 0 then Fatal("unexpected EOF") else Ok(Parsed(s[0], 1))
  }

  /** An unsigned little-endian integer of `width` bytes. */
  function ReadFixed(s: seq<byte>, width: nat): (r: Result<Parsed<nat>>)
    ensures r.Ok? <==> |s| >= width
    ensures r.Ok? ==> r.value.used == width && r.value.value < Pow256(width)
    ensures r.Ok? ==> EncodeLE(r.value.value, width) == s[..width]
  {
    if |s| < width then Fatal("unexpected EOF")
    else
      EncodeDecodeLE(s[..width]);
      Ok(Parsed(DecodeLE(s[..width]), width))
  }

  /** `structure.ReadUint32`. */
  function ReadUint32(s: seq<byte>): (r: Result<Parsed<uint32>>)
    ensures r.Ok? <==> |s| >= 4
    ensures r.Ok? ==> r.value.used == 4 && EncodeLE(r.value.value, 4) == s[..4]
  {
    var n :- ReadFixed(s, 4);
    Ok(Parsed(n.value, 4))
  }

  /** `structure.ReadUint64`. */
  function ReadUint64(s: seq<byte>): (r: Result<Parsed<uint64>>)
    ensures r.Ok? <==> |s| >= 8
    ensures r.Ok? ==> r.value.used == 8 && EncodeLE(r.value.value, 8) == s[..8]
  {
    var n :- ReadFixed(s, 8);
    Ok(Parsed(n.value, 8))
  }

  function ReadLength(p: Primitives, s: seq<byte>): Result<Parsed<uint64>> {
    Within(p.length(s), s)
  }

  function ReadString(p: Primitives, s: seq<byte>): Result<Parsed<string>> {
    Within(p.str(s), s)
  }

  function ReadZipList(p: Primitives, s: seq<byte>): Result<Parsed<seq<string>>> {
    Within(p.zipList(s), s)
  }

  function ReadListpack(p: Primitives, s: seq<byte>): Result<Parsed<seq<string>>> {
    Within(p.listpack(s), s)
  }

  function ReadIntset(p: Primitives, s: seq<byte>): Result<Parsed<seq<string>>> {
    Within(p.intset(s), s)
  }

  /** One pass of a counted decoding loop: the elements it appends and the
      bytes it consumed. */
  type Item = seq<byte> -> Result<Parsed<seq<string>>>

  /** One string read at the cursor, as a one-element pass. */
  function OneString(p: Primitives, s: seq<byte>): (r: Result<Parsed<seq<string>>>)
    ensures r.Ok? <==> ReadString(p, s).Ok?
    ensures r.Ok? ==> r.value == Parsed([ReadString(p, s).value.value], ReadString(p, s).value.used)
  {
    var e :- ReadString(p, s);
    Ok(Parsed([e.value], e.used))
  }

  function StringItem(p: Primitives): Item {
    t => OneString(p, t)
  }

  /** `for i := 0; i < n; i++ { elements = append(elements, item(rd)...) }`:
      `n` passes of `item`, each starting where the previous one stopped,
      their elements appended in the order they were read. */
  function Repeat(item: Item, s: seq<byte>, n: nat): (r: Result<Parsed<seq<string>>>)
    ensures r.Ok? ==> r.value.used <= |s|
    ensures n == 0 ==> r == Ok(Parsed([], 0))
    decreases n
  {
    if n == 0 then Ok(Parsed([], 0))
    else
      var first :- Within(item(s), s);
      var more :- Repeat(item, s[first.used..], n - 1);
      Ok(Parsed(first.value + more.value, first.used + more.used))
  }

  /** `b` more passes after the outcome `x` of earlier passes from `s`. */
  function Then(x: Result<Parsed<seq<string>>>, item: Item, s: seq<byte>, b: nat): Result<Parsed<seq<string>>>
    requires x.Ok? ==> x.value.used <= |s|
  {
    match x
    case Fatal(e) => Fatal(e)
    case Ok(x) =>
      match Repeat(item, s[x.used..], b)
      case Fatal(e) => Fatal(e)
      case Ok(y) => Ok(Parsed(x.value + y.value, x.used + y.used))
  }

  /** `a + b` passes are `a` passes followed by `b` passes from where the
      first `a` stopped: elements keep their reading order across the
      split, and a failure in either part is the failure of the whole. */
  lemma {:induction false} RepeatSplit(item: Item, s: seq<byte>, a: nat, b: nat)
    ensures Repeat(item, s, a + b) == Then(Repeat(item, s, a), item, s, b)
    decreases a
  {
    if a == 0 {
      assert s[0..] == s;
      var y := Repeat(item, s, b);
      if y.Ok? {
        assert [] + y.value.value == y.value.value;
      }
    } else {
      var first := Within(item(s), s);
      if first.Ok? {
        RepeatSplitStep(item, s, first.value, a, b);
      }
    }
  }

  lemma {:induction false} RepeatSplitStep(item: Item, s: seq<byte>, first: Parsed<seq<string>>, a: nat, b: nat)
    requires a > 0 && Within(item(s), s) == Ok(first)
    ensures Repeat(item, s, a + b) == Then(Repeat(item, s, a), item, s, b)
    decreases a, 0
  {
    var t := s[first.used..];
    RepeatUnfold(item, s, first, a + b);
    RepeatUnfold(item, s, first, a);
    RepeatSplit(item, t, a - 1, b);
    assert (a - 1) + b == a + b - 1;
    PrependThen(first, Repeat(item, t, a - 1), item, s, b);
  }

  /** The outcome `r` of passes that follow an earlier pass `p`. */
  function Prepend(p: Parsed<seq<string>>, r: Result<Parsed<seq<string>>>): Result<Parsed<seq<string>>> {
    match r
    case Fatal(e) => Fatal(e)
    case Ok(y) => Ok(Parsed(p.value + y.value, p.used + y.used))
  }

  /** One pass that succeeds, then the remaining passes after it. */
  lemma RepeatUnfold(item: Item, s: seq<byte>, first: Parsed<seq<string>>, n: nat)
    requires n > 0 && Within(item(s), s) == Ok(first)
    ensures Repeat(item, s, n) == Prepend(first, Repeat(item, s[first.used..], n - 1))
  {
  }

  lemma PrependThen(p: Parsed<seq<string>>, x: Result<Parsed<seq<string>>>, item: Item, s: seq<byte>, b: nat)
    requires p.used <= |s|
    requires x.Ok? ==> x.value.used <= |s| - p.used
    ensures Prepend(p, Then(x, item, s[p.used..], b)) == Then(Prepend(p, x), item, s, b)
  {
    if x.Ok? {
      var t := s[p.used..];
      assert t[x.value.used..] == s[p.used + x.value.used..];
      var y := Repeat(item, t[x.value.used..], b);
      if y.Ok? {
        assert p.value + (x.value.value + y.value.value) == (p.value + x.value.value) + y.value.value;
      }
    }
  }

  /** When every pass yields exactly one element (the plain list and set
      encodings), `n` passes yield exactly `n` elements. */
  lemma {:induction false} RepeatStringsCount(p: Primitives, s: seq<byte>, n: nat)
    ensures Repeat(StringItem(p), s, n).Ok? ==> |Repeat(StringItem(p), s, n).value.value| == n
    decreases n
  {
    if n > 0 {
      var first := Within(StringItem(p)(s), s);
      if first.Ok? {
        RepeatStringsCount(p, s[first.value.used..], n - 1);
      }
    }
  }

  /** Element `i` of the plain encodings is the string read right after the
      first `i` strings. */
  lemma RepeatStringsAt(p: Primitives, s: seq<byte>, n: nat, i: nat)
    requires i < n
    requires Repeat(StringItem(p), s, n).Ok?
    ensures Repeat(StringItem(p), s, i).Ok?
    ensures |Repeat(StringItem(p), s, n).value.value| == n
    ensures var before := Repeat(StringItem(p), s, i).value.used;
            var e := ReadString(p, s[before..]);
            e.Ok? && Repeat(StringItem(p), s, n).value.value[i] == e.value.value
  {
    RepeatSplit(StringItem(p), s, i, n - i);
    RepeatStringsCount(p, s, i);
    RepeatStringsCount(p, s, n);
    var x := Repeat(StringItem(p), s, i).value;
    var t := s[x.used..];
    assert Repeat(StringItem(p), t, n - i).Ok?;
    var first := Within(StringItem(p)(t), t);
    assert first.Ok?;
  }

  function Flatten(parts: seq<seq<string>>): seq<string>
    decreases |parts|
  {
    if parts == [] then [] else parts[0] + Flatten(parts[1..])
  }

  /** The same `n` passes as `Repeat`, keeping each pass's elements apart:
      one group per node, in reading order. */
  function Each(item: Item, s: seq<byte>, n: nat): (r: Result<Parsed<seq<seq<string>>>>)
    ensures r.Ok? ==> r.value.used <= |s| && |r.value.value| == n
    decreases n
  {
    if n == 0 then Ok(Parsed([], 0))
    else
      var first :- Within(item(s), s);
      var more :- Each(item, s[first.used..], n - 1);
      Ok(Parsed([first.value] + more.value, first.used + more.used))
  }

  /** A counted loop's elements are the concatenation, in node order, of
      what each of its passes read; it fails exactly when one pass fails. */
  lemma {:induction false} RepeatIsFlattenOfEach(item: Item, s: seq<byte>, n: nat)
    ensures Repeat(item, s, n).Ok? <==> Each(item, s, n).Ok?
    ensures Repeat(item, s, n).Ok? ==>
      Repeat(item, s, n).value.value == Flatten(Each(item, s, n).value.value)
      && Repeat(item, s, n).value.used == Each(item, s, n).value.used
    decreases n
  {
    if n > 0 {
      var first := Within(item(s), s);
      if first.Ok? {
        var t := s[first.value.used..];
        RepeatIsFlattenOfEach(item, t, n - 1);
        var e := Each(item, t, n - 1);
        if e.Ok? {
          var groups := [first.value.value] + e.value.value;
          assert groups[1..] == e.value.value;
        }
      }
    }
  }
}

=== FILE: writer.dfy ===
/** The pipelined writer (`redisWriter`): it sends each entry's command to
    the target, prefixed by a `select` when the entry's database differs
    from the last one selected, and queues the entry so that a second loop
    can read one reply for it and judge that reply. */
module Writer {
  import opened Results
  import opened Strconv
  import opened Entries

  /** The error text the target returns when a `restore` finds its key. */
  const BusyKeyMessage: string := "BUSYKEY Target key name already exists."

  /** The writer as the two loops see it.
      - `db`: the database last selected on the connection;
      - `wire`: every command sent, `select`s included, in order;
      - `inHand`: the entry the reply loop has taken off the channel and
        whose reply it is reading;
      - `waiting`: the entries in the reply channel, oldest first;
      - `parked`: the entry whose send to the full channel is blocked;
      - `sent`, `taken`: every entry passed to `Write`, and every entry
        whose reply has been read, in order (history kept for the proofs'
        sake: they hold nothing the writer consults). */
  datatype Writer = Writer(db: int, wire: seq<seq<string>>, inHand: Option<Entry>,
                           waiting: seq<Entry>, parked: Option<Entry>,
                           sent: seq<Entry>, taken: seq<Entry>)

  /** A freshly connected writer: database 0, nothing sent. */
  const NewWriter: Writer := Writer(0, [], None, [], None, [], [])

  /** The entries the reply loop has yet to take, in the order it takes
      them: the buffered ones, then the one blocked on the full channel. */
  function Queue(w: Writer): seq<Entry> {
    w.waiting + (if w.parked.Some? then [w.parked.value] else [])
  }

  /** Every entry still owed a reply judgement: the one in hand, then the
      queue. */
  function Owed(w: Writer): seq<Entry> {
    (if w.inHand.Some? then [w.inHand.value] else []) + Queue(w)
  }

  function SelectCommand(db: int): seq<string> {
    ["select", Itoa(db)]
  }

  /** `Write`: a `select` when the database changes, then the entry's own
      arguments, then the entry goes to the reply channel. A channel that
      already holds `limit` entries (`PipelineCountLimit`) blocks the send,
      so the entry is parked until the reply loop makes room; a blocked
      writer is not called again, hence the precondition. */
  function Write(w: Writer, e: Entry, limit: nat): (r: Writer)
    requires w.parked.None?
    ensures r.db == e.dbId
    ensures e.dbId != w.db ==> r.wire == w.wire + [SelectCommand(e.dbId), e.argv]
    ensures e.dbId == w.db ==> r.wire == w.wire + [e.argv]
    ensures Queue(r) == Queue(w) + [e] && r.inHand == w.inHand
    ensures r.parked.Some? <==> |w.waiting| >= limit
    ensures r.sent == w.sent + [e] && r.taken == w.taken
  {
    var selected := if w.db != e.dbId then w.wire + [SelectCommand(e.dbId)] else w.wire;
    var wire := selected + [e.argv];
    if |w.waiting| < limit then
      w.(db := e.dbId, wire := wire, waiting := w.waiting + [e], sent := w.sent + [e])
    else
      w.(db := e.dbId, wire := wire, parked := Some(e), sent := w.sent + [e])
  }

  /** What the reply loop does with one reply. */
  datatype Verdict = Accepted | BusyKeySkipped | Abort(reason: string)

  /** The reply policy of `flushInterval`: no error is fine; the BUSYKEY
      error is tolerated unless the restore behaviour is "panic"; any other
      error stops the process. */
  function ClassifyReply(err: Option<string>, behavior: string): (v: Verdict)
    ensures v.Abort? <==> err.Some? && (err.value != BusyKeyMessage || behavior == "panic")
    ensures v == Accepted <==> err.None? || (err.value == BusyKeyMessage && behavior != "skip" && behavior != "panic")
    ensures v == BusyKeySkipped <==> err == Some(BusyKeyMessage) && behavior == "skip"
  {
    match err
    case None => Accepted
    case Some(msg) =>
      if msg == BusyKeyMessage then
        if behavior == "skip" then BusyKeySkipped
        else if behavior == "panic" then Abort("redisWriter received BUSYKEY reply")
        else Accepted
      else Abort("redisWriter received error: " + msg)
  }

  /** The first half of a turn of the reply loop, `e := <-w.chWaitReply`:
      the oldest queued entry is taken into hand. This frees a slot of the
      channel, so a blocked writer's entry moves into it and the writer
      goes on, before any reply is read. The loop blocks while nothing is
      queued, and holds one entry at a time, hence the precondition. */
  function Take(w: Writer): (r: Writer)
    requires w.inHand.None? && Queue(w) != []
    ensures r.inHand == Some(Queue(w)[0]) && Queue(r) == Queue(w)[1..]
    ensures r.parked.None?
    ensures Owed(r) == Owed(w)
    ensures r.wire == w.wire && r.db == w.db && r.sent == w.sent && r.taken == w.taken
  {
    var q := Queue(w);
    w.(inHand := Some(q[0]), waiting := q[1..], parked := None)
  }

  /** The second half: read the next reply off the connection (`err`) and
      judge it as the reply to the entry in hand. */
  function Judge(w: Writer, err: Option<string>, behavior: string): (r: Result<Writer>)
    requires w.inHand.Some?
    ensures r.Fatal? <==> ClassifyReply(err, behavior).Abort?
    ensures r.Ok? ==> && r.value.taken == w.taken + [w.inHand.value]
                      && r.value.inHand.None?
                      && Owed(w) == [w.inHand.value] + Owed(r.value)
                      && Queue(r.value) == Queue(w)
                      && r.value.wire == w.wire && r.value.db == w.db && r.value.sent == w.sent
  {
    match ClassifyReply(err, behavior)
    case Abort(reason) => Fatal(reason)
    case _ => Ok(w.(inHand := None, taken := w.taken + [w.inHand.value]))
  }

  // ---------------------------------------------------------------------
  // The wire, independently of the writer's state

  /** The database in force after the entries `es`, starting from `db`. */
  function DbAfterEntries(db: int, es: seq<Entry>): int {
    if es == [] then db else es[|es| - 1].dbId
  }

  /** The commands the writer puts on the wire for `es`, starting from a
      connection in database `db`. */
  function WireFor(db: int, es: seq<Entry>): seq<seq<string>>
    decreases |es|
  {
    if es == [] then []
    else
      var init := es[..|es| - 1];
      var e := es[|es| - 1];
      var before := DbAfterEntries(db, init);
      WireFor(db, init) + (if e.dbId != before then [SelectCommand(e.dbId)] else []) + [e.argv]
  }

  /** How many of `es` change the database, starting from `db`: the number
      of `select`s sent for them. */
  function Selects(db: int, es: seq<Entry>): nat
    decreases |es|
  {
    if es == [] then 0
    else
      var init := es[..|es| - 1];
      Selects(db, init) + (if es[|es| - 1].dbId != DbAfterEntries(db, init) then 1 else 0)
  }

  /** What every reachable writer satisfies with pipeline limit `limit`. */
  predicate Inv(w: Writer, limit: nat) {
    && |w.waiting| <= limit
    && (w.parked.Some? ==> |w.waiting| == limit)
    && w.sent == w.taken + Owed(w)
    && w.wire == WireFor(0, w.sent)
    && w.db == DbAfterEntries(0, w.sent)
  }

  lemma NewWriterInv(limit: nat)
    ensures Inv(NewWriter, limit)
  {
  }

  lemma {:induction false} WriteKeepsInv(w: Writer, e: Entry, limit: nat)
    requires Inv(w, limit) && w.parked.None?
    ensures Inv(Write(w, e, limit), limit)
  {
    var r := Write(w, e, limit);
    assert r.sent[..|r.sent| - 1] == w.sent;
    assert WireFor(0, r.sent) == w.wire + (if e.dbId != w.db then [SelectCommand(e.dbId)] else []) + [e.argv];
  }

  lemma {:induction false} TakeKeepsInv(w: Writer, limit: nat)
    requires Inv(w, limit) && w.inHand.None? && Queue(w) != []
    ensures Inv(Take(w), limit)
  {
  }

  lemma {:induction false} JudgeKeepsInv(w: Writer, err: Option<string>, behavior: string, limit: nat)
    requires Inv(w, limit) && w.inHand.Some?
    ensures Judge(w, err, behavior).Ok? ==> Inv(Judge(w, err, behavior).value, limit)
  {
    if Judge(w, err, behavior).Ok? {
      var r := Judge(w, err, behavior).value;
      assert w.taken + Owed(w) == (w.taken + [w.inHand.value]) + Owed(r);
    }
  }

  /** Every entry written is judged in the order written: the entries
      whose replies were read are a prefix of those written, and what is
      left is exactly the entry in hand and the queue. Up to `limit + 2`
      entries are unjudged at once: `limit` in the channel, the one in
      hand and the one a blocked writer holds. */
  lemma RepliesInWriteOrder(w: Writer, limit: nat)
    requires Inv(w, limit)
    ensures |w.taken| <= |w.sent| && w.sent[..|w.taken|] == w.taken
    ensures w.sent[|w.taken|..] == Owed(w)
    ensures |Owed(w)| <= limit + 2
  {
  }

  /** The bound is reached: with a channel of one slot, a taken entry, a
      buffered one and a blocked one are all unjudged. */
  lemma UnjudgedReachesLimitPlusTwo(e1: Entry, e2: Entry, e3: Entry)
    ensures var w1 := Write(NewWriter, e1, 1);
            var w2 := Take(w1);
            var w3 := Write(w2, e2, 1);
            var w := Write(w3, e3, 1);
            && Inv(w, 1)
            && Owed(w) == [e1, e2, e3] && w.inHand == Some(e1) && w.parked == Some(e3)
  {
    NewWriterInv(1);
    var w1 := Write(NewWriter, e1, 1);
    WriteKeepsInv(NewWriter, e1, 1);
    var w2 := Take(w1);
    TakeKeepsInv(w1, 1);
    var w3 := Write(w2, e2, 1);
    WriteKeepsInv(w2, e2, 1);
    WriteKeepsInv(w3, e3, 1);
  }

  /** The wire carries each entry's command once, plus one `select` per
      database change. */
  lemma {:induction false} WireLength(db: int, es: seq<Entry>)
    ensures |WireFor(db, es)| == |es| + Selects(db, es)
    decreases |es|
  {
    if es != [] {
      WireLength(db, es[..|es| - 1]);
    }
  }

  /** Entries that all stay in the connection's database produce no
      `select`: the wire is their commands, in order. */
  lemma {:induction false} SameDbNoSelect(db: int, es: seq<Entry>)
    requires forall i :: 0 <= i < |es| ==> es[i].dbId == db
    ensures Selects(db, es) == 0
    ensures |WireFor(db, es)| == |es|
    ensures forall i :: 0 <= i < |es| ==> WireFor(db, es)[i] == es[i].argv
    decreases |es|
  {
    if es != [] {
      var init := es[..|es| - 1];
      SameDbNoSelect(db, init);
      assert DbAfterEntries(db, init) == db;
    }
  }

  /** Where the command of the `k`-th entry lands on the wire: after the
      `k` earlier commands and every `select` sent up to and including its
      own. */
  lemma {:induction false} WirePosition(db: int, es: seq<Entry>, k: nat)
    requires k < |es|
    ensures var p := k + Selects(db, es[..k + 1]);
            p < |WireFor(db, es)| && WireFor(db, es)[p] == es[k].argv
    decreases |es|
  {
    var init := es[..|es| - 1];
    WireLength(db, init);
    if k == |es| - 1 {
      assert es[..k + 1] == es;
    } else {
      assert init[..k + 1] == es[..k + 1];
      WirePosition(db, init, k);
    }
  }

  /** The `select` sent for a database change is never queued for a reply,
      so the wire holds more commands than the replies the loop will ever
      read, by the number of `select`s, and the `k`-th reply read — which
      the target sends for the `k`-th wire command — is judged as the
      reply to the `k`-th entry, whose command sits `Selects` places later
      on the wire. Only while no `select` has been sent do the two line
      up. */
  lemma RepliesLagSelects(w: Writer, limit: nat, k: nat)
    requires Inv(w, limit) && k < |w.taken|
    ensures |w.wire| == |w.sent| + Selects(0, w.sent)
    ensures var p := k + Selects(0, w.sent[..k + 1]);
            p < |w.wire| && w.wire[p] == w.taken[k].argv
  {
    WireLength(0, w.sent);
    RepliesInWriteOrder(w, limit);
    WirePosition(0, w.sent, k);
  }

  /** A concrete instance: the first entry is for database 1, so the reply
      judged for `set` is the target's answer to `select 1`, while the
      answer to `set` itself is left on the connection. */
  lemma SelectReplyMisattributed()
    ensures var e := Entry(1, ["set", "k", "v"], false);
            var w := Take(Write(NewWriter, e, 16));
            && w.wire == [["select", "1"], ["set", "k", "v"]]
            && w.inHand == Some(e)
            && Judge(w, None, "panic") == Ok(w.(inHand := None, taken := [e]))
  {
    assert DigitChar(1) == '1';
    assert Itoa(1) == "1";
    var e := Entry(1, ["set", "k", "v"], false);
    var w := Write(NewWriter, e, 16);
    assert Queue(w) == [e];
  }
}
